=== FILE: README.md ===
# Rubik's cube state machine

A Dafny model of the interactive Rubik's cube in `src/RubiksCube.cpp`,
`src/SmallCube.cpp` and the cube-facing input handlers of `src/Camera.cpp`.
It covers these parts:

- **Sub-cubes.** 27 sub-cubes, each with a fixed identity, a model matrix (its
  place in the assembly) and a rotation matrix (the accumulated orbit).
- **Walls.** The six walls, recomputed from live positions relative to the
  center sub-cube.
- **Wall turns and locks.** A wall turn is a rotation about the center by
  `RotationAngle * RotationDirection` degrees. Six face locks are toggled by
  45-degree turns and gate turns on the other two axes.
- **Arrow moves.** The four arrow keys translate the whole assembly.
- **Keys.** The wall keys, space (flip direction), Z/A (halve or double the
  angle within 45..180) and P (picking mode).
- **Picking.** The right-click decode turns the red byte under the cursor
  into a selected sub-cube.
- **Drags.** The three cursor drags are turning the picked sub-cube, orbiting
  everything, and translating the picked sub-cube.
- **Mixer.** A random run of 50..99 wall keys, each one logged.

Exact arithmetic replaces floats. The wall turns are by 45, 90 and 180
degrees. Starting from whole-number positions, they only produce coordinates
of the form `a + b*sqrt 2` with rational `a` and `b` (`Numbers.Surd`), so
rotations are modelled exactly rather than approximately. `Geometry` writes
a turn by `45 * n` degrees as `n mod 8` exact 45-degree steps in glm's
right-handed convention. A quarter turn maps `(y, z)` to `(-z, y)` about X,
`(x, z)` to `(z, -x)` about Y and `(x, y)` to `(-y, x)` about Z.

The state is an immutable record (`Rubiks.RubiksCube`). Every handler is a
pure function on it. `Session.Step` dispatches one input event, and
`Session.Run` folds a sequence of events. The main result is
`Session.SessionGuarantees`. From the constructed state, whatever keys,
clicks, drags and mixes follow:

- set locks always stay within one axis pair;
- in picking mode a right click selects exactly the sub-cube drawn under
  the cursor.

As long as no picked sub-cube is dragged with the right button, moreover:

- no two sub-cubes ever share a position;
- whenever no lock is set, every sub-cube sits at a whole-unit offset from
  the center.

That drag translates one sub-cube freely, and `Session.PickedShiftCanCollide`
shows it can put a sub-cube on top of another. The lock and pick guarantees
do not depend on positions, so they hold for every run.

The direction and angle fields have the subset types `Sign` (1 or -1) and
`Angle` (45, 90 or 180). The constructor sets 1 and 90. Space, Z and A are
the only writers, and each handler's result is checked against these types.
So "the direction stays in {1, -1}" and "the angle stays in {45, 90, 180}"
are verified as well-typedness of `HandleSpace`, `HandleZ` and `HandleA`.

## Model

| member | source | states |
|---|---|---|
| SmallCubes.NewSmallCube | src/SmallCube.cpp:4-5 | The positional constructor stores the identity, its position reads back as `pos`, its linear part is the identity and its rotation matrix is the identity |
| SmallCubes.DefaultSmallCube | src/SmallCube.cpp:8-9 | The default constructor gives identity 0 and the identity model matrix, so the sub-cube sits at the origin |
| SmallCubes.SetModelMatrix | src/SmallCube.cpp:27-29 | The model matrix reads back as the one set, the position becomes its translation column, and identity and rotation matrix are kept |
| SmallCubes.SetRotationMatrix | src/SmallCube.cpp:31-32 | The rotation matrix reads back as the one set; identity, model matrix and position are untouched, so orbiting never changes wall membership |
| SmallCubes.PositionIsOriginImage | src/SmallCube.cpp:12-14 | The position read from the model matrix's last column is the image of the sub-cube's own origin under that matrix |
| SmallCubes.ModelMatrixRoundTrip | src/SmallCube.cpp:17-29 | Getting after setting returns the matrix set, and setting the matrix just got restores the sub-cube |
| Geometry.Rotate | src/RubiksCube.cpp:112-114 | glm::rotate by 45n degrees about a coordinate axis keeps the coordinate along that axis |
| Geometry.RotateCompose | src/RubiksCube.cpp:112-114 | A rotation by 45m degrees followed by one by 45n degrees about the same axis is the rotation by 45(m+n) degrees |
| Geometry.RotateInverse | src/RubiksCube.cpp:112-114 | Rotating back by the opposite angle restores the point |
| Geometry.RotateInjective | src/RubiksCube.cpp:112-114 | A rotation never maps two different points to the same point |
| Geometry.RotateQuarter | src/RubiksCube.cpp:112-114 | A 90-degree rotation is the exact lattice quarter turn of glm's right-handed convention |
| Geometry.RotateEvenLattice | src/RubiksCube.cpp:112-114 | A rotation by a multiple of 90 degrees keeps whole-number points whole |
| Geometry.RotateAbout | src/RubiksCube.cpp:111-117 | back * rot * toOrigin * model keeps the coordinate along the axis of the translation column and of every linear column |
| Geometry.RotateAboutOffset | src/RubiksCube.cpp:111-117 | back * rot * toOrigin * model rotates the position's offset from the pivot and keeps its coordinate along the axis |
| Geometry.RotateAboutCompose | src/RubiksCube.cpp:111-117 | Two turns about the same pivot and axis compose by adding their angles |
| Geometry.RotateAboutFullTurns | src/RubiksCube.cpp:111-117 | A turn by a whole number of full turns leaves the matrix as it was |
| Geometry.RotateAboutInverse | src/RubiksCube.cpp:111-117 | A turn followed by the opposite turn about the same pivot restores the matrix |
| Geometry.RotateAboutInjective | src/RubiksCube.cpp:111-117 | A turn about a pivot never brings two different positions together |
| Geometry.TurnAboutOwnPosition | src/Camera.cpp:156-161 | Turning a picked sub-cube about its own position, by any linear map, leaves its position where it was |
| Rubiks.GridPositionOf | src/RubiksCube.cpp:27-38 | The sub-cube generated for (x, y, z) gets the identity 9(x+1)+3(y+1)+(z+1), which lies in 0..26 and maps back to (x, y, z) |
| Rubiks.GenerateSmallCubes | src/RubiksCube.cpp:24-42 | The triple loop yields 27 sub-cubes; sub-cube i has identity i and sits at its grid point; the remembered center is identity 13 at the origin |
| Rubiks.Construct | src/RubiksCube.cpp:10-15 | The constructor's state equals the closed-form initial state: the generated grid, direction 1, angle 90, no locks, picking off, nothing selected |
| Rubiks.Flip | src/Camera.cpp:291 | Negating a direction always gives the other one of 1 and -1 |
| Rubiks.SignedAngle | src/RubiksCube.cpp:106-113 | The signed turn angle in degrees is the product of the angle and the direction |
| Rubiks.Eighths | src/RubiksCube.cpp:112-114 | The turn is n eighths of a full turn with 45n equal to angle times direction; n is odd exactly when the angle is 45 |
| Rubiks.InWallOneSide | src/RubiksCube.cpp:110 | A member of a wall is one unit from the pivot along the wall's axis, so it is never level with the pivot and never in the opposite wall (the same test at lines 130, 150, 170, 190, 210) |
| Rubiks.RotateMembers | src/RubiksCube.cpp:109-119 | Every member's offset from the pivot is rotated by 45n degrees about the wall's axis, and so is each linear column of its model matrix; rotation matrices and identities are kept; non-members are untouched; members stay members |
| Rubiks.RotateWall | src/RubiksCube.cpp:105-122 | A wall turn rotates each member's offset from the pivot and each linear column of its model matrix by angle times direction about the wall's axis, keeps every rotation matrix, keeps the pivot, moves only the wall's members, keeps the member set and all identities, toggles the wall's own lock exactly when the angle is 45 and no other lock, and changes nothing else |
| Rubiks.CanRotate | src/RubiksCube.cpp:227-249 | A wall may turn exactly when every lock belonging to a wall on another axis is clear |
| Rubiks.MoveAll | src/RubiksCube.cpp:256-285 | An arrow key moves every sub-cube by the same vector: up -y, down +y, right -x, left +x, by the sensitivity; linear parts, rotation matrices and identities are kept and nothing else changes |
| RubiksProperties.GridPositionBijective | src/RubiksCube.cpp:24-42 | Generation places identities 0..26 one-to-one on the 27 points of {-1,0,1}^3 |
| RubiksProperties.SlotDigits | src/RubiksCube.cpp:27-38 | Every identity 0..26 is the identity generated for exactly one grid point (x, y, z) |
| RubiksProperties.InitialAssembly | src/RubiksCube.cpp:10-42 | After construction identities equal slots, each sub-cube is at its grid point, the center is identity 13 at the origin, direction 1, angle 90, picking off, no lock, no selection |
| RubiksProperties.InitialPoint | src/RubiksCube.cpp:24-50 | After construction the pivot is the origin and slot i holds the grid point whose identity is i |
| RubiksProperties.InitialWallMember | src/RubiksCube.cpp:110 | A grid point lies in a wall about the origin exactly when its identity is in that wall's listed slots (the same test at lines 130, 150, 170, 190, 210) |
| RubiksProperties.InitialWallSizes | src/RubiksCube.cpp:105-222 | After construction the members of each wall are the nine listed slots, so each wall has exactly nine members |
| RubiksProperties.InitialWallCount | src/RubiksCube.cpp:105-222 | After construction a sub-cube lies in as many walls as it has nonzero coordinates (corners 3, edges 2, face centres 1); only the center lies in none |
| RubiksProperties.RotateMembersCompose | src/RubiksCube.cpp:109-119 | Turning a wall's members by m and then by n eighths is turning them by m+n, because the member set is the same for both turns |
| RubiksProperties.RotateMembersFullTurns | src/RubiksCube.cpp:109-119 | Turning by whole turns leaves every sub-cube as it was |
| RubiksProperties.RotateWallTurnBack | src/RubiksCube.cpp:105-122 | Turning a wall, flipping the direction and turning it again restores every sub-cube and every lock |
| RubiksProperties.TwoTurns | src/RubiksCube.cpp:105-122 | Two turns of one wall move its members by twice the angle and leave the locks as they were |
| RubiksProperties.FourQuarterTurns | src/RubiksCube.cpp:105-122 | Four 90-degree turns of one wall restore the whole state |
| RubiksProperties.TwoHalfTurns | src/RubiksCube.cpp:105-122 | Two 180-degree turns of one wall restore the whole state |
| RubiksProperties.TwoEighthTurns | src/RubiksCube.cpp:105-122 | Two 45-degree turns move the sub-cubes as one 90-degree turn does and toggle the wall's lock back |
| RubiksProperties.InitialRightTurn | src/RubiksCube.cpp:105-122 | The first R from the constructed cube sends every sub-cube with x = 1 from (x, y, z) to (x, -z, y) and leaves every other sub-cube in place |
| RubiksProperties.CenterInNoWall | src/RubiksCube.cpp:48-50 | The pivot, the center sub-cube's position that getPosition returns, is never a member of any wall it pivots, so a wall turn never moves it |
| RubiksProperties.InitialDistinct | src/RubiksCube.cpp:24-42 | After construction no two sub-cubes share a position |
| RubiksProperties.RotateWallKeepsDistinct | src/RubiksCube.cpp:105-122 | A wall turn never makes two sub-cubes collide |
| RubiksProperties.MoveAllKeepsWalls | src/RubiksCube.cpp:256-285 | An arrow move keeps every offset from the center and every wall membership |
| RubiksProperties.MoveAllKeepsDistinct | src/RubiksCube.cpp:256-285 | An arrow move never makes two sub-cubes collide |
| RubiksProperties.ArrowRoundTrip | src/RubiksCube.cpp:256-285 | Up then down, down then up, left then right and right then left restore the state |
| RubiksProperties.ArrowUndo | src/RubiksCube.cpp:256-285 | Two arrow moves whose vectors cancel restore the state |
| Camera.HandleWallKey | src/Camera.cpp:246-286 | A wall key performs the wall turn when its lock check allows it and otherwise changes nothing; it never changes its own wall's gate or any other wall's lock, keeps identities, and keeps set locks within one axis pair |
| Camera.HandleSpace | src/Camera.cpp:288-292 | Space changes the direction and nothing else |
| Camera.HandleZ | src/Camera.cpp:294-300 | Z halves the angle with a floor of 45: 180 goes to 90, 90 and 45 go to 45; nothing else changes |
| Camera.HandleA | src/Camera.cpp:302-307 | A doubles the angle with a ceiling of 180: 45 goes to 90, 90 and 180 go to 180; nothing else changes |
| Camera.HandleP | src/Camera.cpp:351-356 | P toggles picking mode, keeps the selection and changes nothing else |
| Camera.ToByte | src/Camera.cpp:103-105 | Reading a colour channel as an unsigned byte gives a value in 0..255: 0 at or below 0.0 and 255 at or above 1.0 |
| Camera.PickRed | src/RubiksCube.cpp:84-85 | The red byte read back where identity id was drawn in colour id/255 is a byte, and for every identity in 0..26 it is id itself |
| Camera.FirstWithIndex | src/Camera.cpp:113-121 | The scan stops at the first sub-cube with the identity sought; it finds none exactly when no sub-cube has it |
| Camera.Pick | src/Camera.cpp:96-123 | Outside picking mode nothing happens; a byte outside 0..26 clears the selection; a byte in 0..26 that some sub-cube carries selects the first sub-cube with that identity; one that no sub-cube carries keeps the selection; only the selection changes |
| Camera.RightClick | src/Camera.cpp:96-123 | The loop over the sub-cubes computes the pick decode, breaking at the first match |
| Camera.PickSelectsDrawnCube | src/Camera.cpp:96-123 | While identities equal slots, a right click in picking mode selects the sub-cube drawn under the cursor, and a click on the white background clears the selection |
| Camera.CursorDrag | src/Camera.cpp:141-198 | Identities are kept. A left drag in picking mode turns the selected sub-cube's model matrix about its own position; outside picking mode it pre-multiplies every rotation matrix by the orbit. A right drag in picking mode translates the selected sub-cube's model matrix by the x-y shift. Only a picked sub-cube's model matrix can change. A left drag keeps every position. With no button, or with a right drag and nothing picked, nothing changes. Only the sub-cubes change |
| CameraProperties.TogglesUndoThemselves | src/Camera.cpp:288-356 | Space pressed twice and P pressed twice change nothing |
| CameraProperties.AngleKeysInverse | src/Camera.cpp:294-307 | Z undoes A below the ceiling and A undoes Z above the floor; Z stays at 45 and A stays at 180 |
| CameraProperties.AngleKeysSaturate | src/Camera.cpp:294-307 | Two presses of Z reach 45 and two presses of A reach 180 from any angle |
| CameraProperties.WallKeyUndo | src/Camera.cpp:246-292 | A wall key, space, the same wall key and space restore the whole state, whether the first key was blocked or not |
| CameraProperties.PairIsAxis | src/RubiksCube.cpp:227-249 | Two walls share a lock pair exactly when they turn about the same axis |
| CameraProperties.EighthTurnFencesAxis | src/RubiksCube.cpp:105-249 | From an unlocked cube, a 45-degree turn of a wall leaves exactly the walls of its axis able to turn, and a second one unlocks everything |
| Mixer.MixCount | src/Camera.cpp:331 | The mixer performs between 50 and 99 actions |
| Mixer.ApplyWallKeys | src/Camera.cpp:334-343 | A run of wall keys changes only sub-cubes and locks, keeps identities, and keeps set locks within one axis pair |
| Mixer.ApplyWallKeysSnoc | src/Camera.cpp:334-343 | One more key after a run of keys is that key applied to the run's result |
| Mixer.Mix | src/Camera.cpp:312-349 | Without the log file nothing happens; otherwise the log is the drawn walls with the initial signed angle, and the state is those wall keys pressed in order through their lock checks |
| Mixer.MixStep | src/Camera.cpp:334-346 | Each action extends the log by its draw and the pressed keys by its wall |
| Mixer.MixUndo | src/Camera.cpp:334-343 | Any run of wall keys, a mix included, is undone by space, the keys in reverse order, and space |
| Session.Step | src/Camera.cpp:43-75 | Dispatching any key, click or drag keeps the center and every identity, keeps set locks within one axis pair, and changes locks only for a wall key or the mixer (also the click at lines 93-123 and the drags at lines 141-198) |
| Session.RunTracked | src/Camera.cpp:43-198 | Every sequence of inputs whatsoever keeps the center, the identities and the lock pairs |
| Session.InitialSound | src/RubiksCube.cpp:10-42 | The constructed state satisfies the session invariant |
| Session.RotateKeepsCubeAligned | src/RubiksCube.cpp:105-122 | An allowed wall turn keeps each sub-cube aligned: whole-unit offset, or one 45-degree step from it while its wall is locked |
| Session.TurnKeepsAlignment | src/RubiksCube.cpp:112-121 | Under a turn by n eighths an offset stays whole or one step from whole, with the lock toggling exactly when n is odd |
| Session.WallKeySound | src/Camera.cpp:246-286 | A wall key keeps the session invariant, in particular set locks stay within one axis pair |
| Session.WallKeysSound | src/Camera.cpp:334-343 | Any run of wall keys, as the mixer presses them, keeps the session invariant |
| Session.MoveAllSound | src/RubiksCube.cpp:256-285 | An arrow move keeps the session invariant |
| Session.StepSound | src/Camera.cpp:43-198 | Every input except a right-button drag of a picked sub-cube keeps the session invariant |
| Session.RunSound | src/Camera.cpp:43-198 | A sequence of such inputs keeps the session invariant |
| Session.UnlockedIsLattice | src/RubiksCube.cpp:105-249 | In a sound state (one reached without a right drag of a picked sub-cube) with no lock set, every sub-cube sits at a whole-unit offset from the center |
| Session.TrackedPick | src/Camera.cpp:96-123 | In any reachable state in picking mode, a right click selects the sub-cube drawn under the cursor |
| Session.SessionGuarantees | src/Camera.cpp:43-198 | From construction, after any inputs, locks stay within one axis pair and picking selects the drawn sub-cube; after inputs without a picked right drag, moreover no two sub-cubes meet and with no lock set every offset is whole |
| Session.PickedShiftCollides | src/Camera.cpp:180-189 | A right drag that moves the picked sub-cube onto another one makes the two meet |
| Session.PickedShiftCanCollide | src/Camera.cpp:180-189 | A picked sub-cube can be dragged with the right button onto any other sub-cube whose offset lies in the x-y plane and has no sqrt 2 component, since a drag distance is a plain real |
| Session.InitialReachablePair | src/RubiksCube.cpp:24-42 | In the constructed grid the sub-cube in slot 3 lies one unit above slot 0, so such pairs exist from the start |

## Left out

- Console output: the `std::cout` and `std::cerr` messages every handler prints (for example `src/RubiksCube.cpp:106` and `src/Camera.cpp:248`) change no state.
- Rendering: `RubiksCube::render`, `src/main.cpp`, shaders and buffers. The picking pass is kept only as the colour it draws each sub-cube in.
- The camera itself: projection, view, zoom, and the panning of the right drag outside picking mode. None of these touch the cube state.
- Float arithmetic. Coordinates are exact, and the tolerance `epsilon` of the membership test becomes exact equality. Rounding drift over long sessions is not modelled.
- `glReadPixels` and the cursor position are foreign calls. The right click receives the red byte read back as a parameter.
- `std::rand` is a parameter. `rand(k)` is the k-th value drawn during a mix.
- The detached thread and `sleep_for` of the mixer. The mixer runs to completion between two inputs. Interleaving with other callbacks is not modelled.
- Whether `mixer.txt` opens is a parameter. The log's text format is not modelled: each line is a wall and a signed angle.
- The `Sensitivity` field is a free real. Nothing in the cube's code writes it after the constructor sets 1.0.
- Camera.CursorDrag: the drag's float angles and distances are not computed from the cursor delta and sensitivities. They enter as their results: two linear maps and an x-y translation.
- SmallCubes.DefaultSmallCube: the default constructor leaves the rotation matrix uninitialised. The model takes whatever it holds as a parameter.
- Geometry.Affine: matrices are affine, with a bottom row of (0, 0, 0, 1). This is every matrix the code builds, and projective matrices never reach a sub-cube.
- Rubiks.RotateWall: the turn is by the angle and direction stored in the state. These are always 45, 90 or 180 degrees and 1 or -1, so other angles are not modelled.

Four behaviours of the code are worth stating on their own:

- P toggles picking mode and keeps the selection (`src/Camera.cpp:351-356`, `Camera.HandleP`).
- Right after generation, and whenever every offset from the center lies in {-1, 0, 1}^3, a sub-cube lies in one wall per nonzero coordinate of its offset (`src/RubiksCube.cpp:110-210`, `RubiksProperties.InitialWallCount`): corners in three, edges in two, face centres in one, the center in none. After a 45-degree turn this no longer holds: a corner moved off the grid can have two nonzero coordinates and lie in one wall only.
- The mixer writes a log line even when a lock check blocked the action (`src/Camera.cpp:334-344`).
- The mixer takes the logged angle from the state before the first action (`src/Camera.cpp:322-329`). Wall keys never change the angle, so it is correct for every line.

=== FILE: camera.dfy ===
/** The input handlers of class Camera that act on the cube: the wall keys,
    the direction and angle keys, the picking toggle, the right-click pick
    and the mouse drags. Camera-only effects (view, projection, zoom) do not
    touch the cube state and are not modelled. */
module Camera {
  import opened Options
  import opened Numbers
  import opened Geometry
  import opened SmallCubes
  import opened Rubiks

  // ---------------------------------------------------------------------
  // Keys
  // ---------------------------------------------------------------------

  /** handleRKey .. handleFKey: the wall turns only when its lock check
      allows it. The key never changes its own wall's gate, and only the
      sub-cubes and the locks can change. */
  function HandleWallKey(s: RubiksCube, w: Wall): (r: RubiksCube)
    ensures CanRotate(r, w) == CanRotate(s, w)
    ensures !CanRotate(s, w) ==> r == s
    ensures CanRotate(s, w) ==> r == RotateWall(s, w)
    ensures LocksInOnePair(s.locks) ==> LocksInOnePair(r.locks)
    ensures forall i: Slot :: r.cubes[i].index == s.cubes[i].index
    ensures forall k: LockSlot :: k != LockIndex(w) ==> r.locks[k] == s.locks[k]
    ensures r == s.(cubes := r.cubes, locks := r.locks)
  {
    if CanRotate(s, w) then RotateWall(s, w) else s
  }

  /** handleSpaceKey: the direction is negated and nothing else changes. */
  function HandleSpace(s: RubiksCube): (r: RubiksCube)
    ensures r.direction != s.direction
    ensures r == s.(direction := r.direction)
  {
    s.(direction := Flip(s.direction))
  }

  /** handleZKey: max(angle / 2.0, 45.0) in float, stored back into the
      integer angle by truncation. */
  function HandleZ(s: RubiksCube): (r: RubiksCube)
    ensures r.angle == if s.angle == 180 then 90 else 45
    ensures r == s.(angle := r.angle)
  {
    var half := s.angle as real / 2.0;
    var kept := if half < 45.0 then 45.0 else half;
    s.(angle := kept.Floor)
  }

  /** handleAKey: min(angle * 2.0, 180.0) in float, stored back into the
      integer angle by truncation. */
  function HandleA(s: RubiksCube): (r: RubiksCube)
    ensures r.angle == if s.angle == 45 then 90 else 180
    ensures r == s.(angle := r.angle)
  {
    var doubled := s.angle as real * 2.0;
    var kept := if 180.0 < doubled then 180.0 else doubled;
    s.(angle := kept.Floor)
  }

  /** handlePKey: picking mode toggles. The selection is left as it was. */
  function HandleP(s: RubiksCube): (r: RubiksCube)
    ensures r.picking != s.picking
    ensures r.selected == s.selected
    ensures r == s.(picking := r.picking)
  {
    s.(picking := !s.picking)
  }

  // ---------------------------------------------------------------------
  // Picking
  // ---------------------------------------------------------------------

  /** OpenGL's conversion of a colour channel to an unsigned byte: clamp to
      [0, 1], scale by 255 and round to nearest. */
  function ToByte(c: real): (b: int)
    ensures 0 <= b <= 255
    ensures c <= 0.0 ==> b == 0
    ensures c >= 1.0 ==> b == 255
  {
    if c <= 0.0 then 0 else if c >= 1.0 then 255 else (c * 255.0 + 0.5).Floor
  }

  /** The red byte the picking pass leaves where the sub-cube of identity id
      is drawn: it is drawn in the colour id / 255, so the byte read back
      decodes to id for every identity 0..26. */
  function PickRed(id: int): (red: int)
    ensures 0 <= red <= 255
    ensures 0 <= id <= 26 ==> red == id
  {
    var c := id as real / 255.0;
    assert c * 255.0 == id as real;
    ToByte(c)
  }

  /** The red byte of the background: the clear colour is white. */
  const BackgroundRed := ToByte(1.0)

  /** The first slot at or after `from` whose sub-cube has identity id. */
  function FirstWithIndex(cubes: Grid, id: int, from: nat): (k: Option<Slot>)
    requires from <= 27
    ensures k.Some? ==> from <= k.value && cubes[k.value].index == id
    ensures k.Some? ==> forall j: Slot :: from <= j < k.value ==> cubes[j].index != id
    ensures k.None? <==> forall j: Slot :: from <= j ==> cubes[j].index != id
    decreases 27 - from
  {
    if from == 27 then None
    else if cubes[from].index == id then Some(from)
    else FirstWithIndex(cubes, id, from + 1)
  }

  /** The right-click pick: outside picking mode nothing happens; a red byte
      outside 0..26 clears the selection; otherwise the first sub-cube with
      that identity becomes the selection, and if there is none the
      selection is kept. */
  function Pick(s: RubiksCube, red: int): (r: RubiksCube)
    ensures !s.picking ==> r == s
    ensures s.picking && (red < 0 || red > 26) ==> r.selected == None
    ensures r.selected.Some? && r.selected != s.selected ==> s.cubes[r.selected.value].index == red
    ensures s.picking && 0 <= red <= 26 && (exists j: Slot :: s.cubes[j].index == red) ==>
      && r.selected.Some?
      && s.cubes[r.selected.value].index == red
      && forall j: Slot :: j < r.selected.value ==> s.cubes[j].index != red
    ensures s.picking && 0 <= red <= 26 && (forall j: Slot :: s.cubes[j].index != red) ==> r.selected == s.selected
    ensures r == s.(selected := r.selected)
  {
    if !s.picking then s
    else if red < 0 || red > 26 then s.(selected := None)
    else match FirstWithIndex(s.cubes, red, 0)
      case Some(k) => s.(selected := Some(k))
      case None => s
  }

  /** MouseButtonCallback's right-button branch: the scan over the sub-cubes
      stops at the first one whose identity is the decoded red byte. */
  method RightClick(s: RubiksCube, red: int) returns (r: RubiksCube)
    ensures r == Pick(s, red)
  {
    r := s;
    if !s.picking {
      return;
    }
    if red < 0 || red > 26 {
      r := s.(selected := None);
      return;
    }
    var i := 0;
    while i < 27
      invariant 0 <= i <= 27
      invariant forall j: Slot :: j < i ==> s.cubes[j].index != red
      invariant r == s
    {
      if s.cubes[i].index == red {
        r := s.(selected := Some(i));
        return;
      }
      i := i + 1;
    }
  }

  /** While every sub-cube's identity is its slot, a right click in picking
      mode selects exactly the sub-cube drawn under the cursor, and a click on
      the background clears the selection. */
  lemma PickSelectsDrawnCube(s: RubiksCube, i: Slot)
    requires s.picking
    requires forall j: Slot :: s.cubes[j].index == j
    ensures Pick(s, PickRed(i)).selected == Some(i)
    ensures Pick(s, BackgroundRed).selected == None
  {
    var k := FirstWithIndex(s.cubes, i, 0);
    assert s.cubes[i].index == i;
  }

  // ---------------------------------------------------------------------
  // Mouse drags
  // ---------------------------------------------------------------------

  /** A cursor movement while buttons are held. The float angles and
      distances are computed from the cursor delta and the sensitivities;
      the model receives their results: `turn` is rotY * rotX for a picked
      cube, `orbit` is the clamped rotY * rotX for the whole cube, and
      `shiftX`, `shiftY` are the picked cube's translation in the x-y plane. */
  datatype Drag = Drag(leftHeld: bool, rightHeld: bool, turn: Linear, orbit: Linear, shiftX: real, shiftY: real)

  /** The translation of a right-button drag of a picked cube: it never has a
      z component. */
  function Shift(d: Drag): Vec3 {
    Vec3(FromReal(d.shiftX), FromReal(d.shiftY), Int(0))
  }

  /** CursorPosCallback. Left button: in picking mode the selected sub-cube
      is turned about its own position, otherwise every sub-cube's rotation
      matrix is pre-multiplied by the orbit. Right button (only when the left
      is not held): in picking mode the selected sub-cube is translated,
      otherwise only the camera moves. */
  function CursorDrag(s: RubiksCube, d: Drag): (r: RubiksCube)
    ensures forall i: Slot :: r.cubes[i].index == s.cubes[i].index
    ensures forall i: Slot :: (s.selected != Some(i) || !s.picking) ==> GetModelMatrix(r.cubes[i]) == GetModelMatrix(s.cubes[i])
    ensures d.leftHeld ==> forall i: Slot :: GetPosition(r.cubes[i]) == GetPosition(s.cubes[i])
    ensures !d.leftHeld && !d.rightHeld ==> r == s
    ensures !d.leftHeld && (!s.picking || s.selected == None) ==> r == s
    ensures d.leftHeld && s.picking && s.selected.Some? ==>
      var k := s.selected.value;
      GetModelMatrix(r.cubes[k]) == TurnAbout(d.turn, GetPosition(s.cubes[k]), GetModelMatrix(s.cubes[k]))
    ensures d.leftHeld && !s.picking ==>
      forall i: Slot :: GetRotationMatrix(r.cubes[i]) == Compose(d.orbit, GetRotationMatrix(s.cubes[i]))
    ensures !d.leftHeld && d.rightHeld && s.picking && s.selected.Some? ==>
      var k := s.selected.value;
      GetModelMatrix(r.cubes[k]) == TranslateBy(Shift(d), GetModelMatrix(s.cubes[k]))
    ensures r == s.(cubes := r.cubes)
  {
    if d.leftHeld then
      if s.picking then
        match s.selected
        case Some(k) =>
          var cube := s.cubes[k];
          TurnAboutOwnPosition(d.turn, GetModelMatrix(cube));
          s.(cubes := s.cubes[k := SetModelMatrix(cube, TurnAbout(d.turn, GetPosition(cube), GetModelMatrix(cube)))])
        case None => s
      else
        s.(cubes := seq(27, i requires 0 <= i < 27 =>
          SetRotationMatrix(s.cubes[i], Compose(d.orbit, GetRotationMatrix(s.cubes[i])))))
    else if d.rightHeld then
      if s.picking then
        match s.selected
        case Some(k) =>
          var cube := s.cubes[k];
          s.(cubes := s.cubes[k := SetModelMatrix(cube, TranslateBy(Shift(d), GetModelMatrix(cube)))])
        case None => s
      else s
    else s
  }
}

=== FILE: camera_properties.dfy ===
/** What the key handlers guarantee: which toggles undo themselves, how the
    angle keys walk through 45, 90 and 180, how a turn is undone, and how an
    eighth turn fences off the other two axes. */
module CameraProperties {
  import opened Rubiks
  import opened RubiksProperties
  import opened Camera

  /** Pressing space twice, or P twice, changes nothing. */
  lemma TogglesUndoThemselves(s: RubiksCube)
    ensures HandleSpace(HandleSpace(s)) == s
    ensures HandleP(HandleP(s)) == s
  {
  }

  /** Z undoes A from 45 and 90, A undoes Z from 90 and 180; Z has its floor
      at 45 and A its ceiling at 180. */
  lemma AngleKeysInverse(s: RubiksCube)
    ensures s.angle != 180 ==> HandleZ(HandleA(s)) == s
    ensures s.angle != 45 ==> HandleA(HandleZ(s)) == s
    ensures s.angle == 45 ==> HandleZ(s) == s
    ensures s.angle == 180 ==> HandleA(s) == s
  {
  }

  /** Two presses of Z from anywhere reach the floor, two presses of A reach
      the ceiling. */
  lemma AngleKeysSaturate(s: RubiksCube)
    ensures HandleZ(HandleZ(s)).angle == 45
    ensures HandleA(HandleA(s)).angle == 180
  {
  }

  /** A wall key, space, the same wall key and space again restore the state:
      the second turn is allowed because a wall's own lock never blocks it,
      and it turns the wall back by the same angle, toggling the lock back. */
  lemma WallKeyUndo(s: RubiksCube, w: Wall)
    ensures HandleSpace(HandleWallKey(HandleSpace(HandleWallKey(s, w)), w)) == s
  {
    if CanRotate(s, w) {
      RotateWallTurnBack(s, w);
      assert HandleSpace(HandleSpace(s)) == s;
    }
  }

  /** The axis pair a lock slot belongs to: 0 for right/left, 1 for up/down,
      2 for back/front. */
  function PairOf(w: Wall): int {
    LockIndex(w) / 2
  }

  lemma PairIsAxis(w: Wall, v: Wall)
    ensures PairOf(w) == PairOf(v) <==> AxisOf(w) == AxisOf(v)
  {
  }

  /** From an unlocked cube, an eighth turn of wall w leaves exactly the walls
      of w's axis able to turn: the half-turned wall would otherwise be cut
      by a wall across it. A second eighth turn of w unlocks everything
      again. */
  lemma EighthTurnFencesAxis(s: RubiksCube, w: Wall)
    requires s.angle == 45
    requires forall k: LockSlot :: !s.locks[k]
    ensures var r := HandleWallKey(s, w);
      forall v: Wall :: CanRotate(r, v) <==> AxisOf(v) == AxisOf(w)
    ensures forall k: LockSlot :: !HandleWallKey(HandleWallKey(s, w), w).locks[k]
  {
    var r := HandleWallKey(s, w);
    assert CanRotate(s, w);
    assert r.locks[LockIndex(w)];
    forall v: Wall
      ensures CanRotate(r, v) <==> AxisOf(v) == AxisOf(w)
    {
      PairIsAxis(w, v);
    }
    TwoEighthTurns(s, w);
  }
}

=== FILE: geometry.dfy ===
/** Points, rotations and affine transforms of assembly space.

  A rotation by a signed angle of 45*n degrees about a coordinate axis is
  written as n mod 8 successive 45-degree steps. The axis conventions are
  glm's right-handed ones, the convention `glm::rotate` uses in
  src/RubiksCube.cpp: a quarter turn about X maps (y, z) to (-z, y), about Y
  maps (x, z) to (z, -x) and about Z maps (x, y) to (-y, x).
 */
module Geometry {
  import opened Numbers

  datatype Vec3 = Vec3(x: Surd, y: Surd, z: Surd)

  datatype Axis = X | Y | Z

  function Coord(v: Vec3, a: Axis): Surd {
    match a
    case X => v.x
    case Y => v.y
    case Z => v.z
  }

  function Plus(u: Vec3, v: Vec3): Vec3 {
    Vec3(Add(u.x, v.x), Add(u.y, v.y), Add(u.z, v.z))
  }

  function Minus(u: Vec3, v: Vec3): Vec3 {
    Vec3(Sub(u.x, v.x), Sub(u.y, v.y), Sub(u.z, v.z))
  }

  function Point(x: int, y: int, z: int): Vec3 {
    Vec3(Int(x), Int(y), Int(z))
  }

  const Origin := Point(0, 0, 0)

  /** Every coordinate of v is a whole number. */
  predicate IsLattice(v: Vec3) {
    IsInteger(v.x) && IsInteger(v.y) && IsInteger(v.z)
  }

  /** Rotation of v by +45 degrees about axis a. */
  function Turn45(a: Axis, v: Vec3): Vec3 {
    match a
    case X => Vec3(v.x, Sub(Cos45Times(v.y), Cos45Times(v.z)), Add(Cos45Times(v.y), Cos45Times(v.z)))
    case Y => Vec3(Add(Cos45Times(v.x), Cos45Times(v.z)), v.y, Sub(Cos45Times(v.z), Cos45Times(v.x)))
    case Z => Vec3(Sub(Cos45Times(v.x), Cos45Times(v.y)), Add(Cos45Times(v.x), Cos45Times(v.y)), v.z)
  }

  /** The exact lattice quarter turn about axis a. */
  function Turn90(a: Axis, v: Vec3): Vec3 {
    match a
    case X => Vec3(v.x, Neg(v.z), v.y)
    case Y => Vec3(v.z, v.y, Neg(v.x))
    case Z => Vec3(Neg(v.y), v.x, v.z)
  }

  /** Two 45-degree steps make the lattice quarter turn. */
  lemma Turn45Twice(a: Axis, v: Vec3)
    ensures Turn45(a, Turn45(a, v)) == Turn90(a, v)
  {
  }

  /** Four quarter turns about one axis are the identity. */
  lemma Turn90Four(a: Axis, v: Vec3)
    ensures Turn90(a, Turn90(a, Turn90(a, Turn90(a, v)))) == v
  {
  }

  lemma NegInteger(u: Surd)
    requires IsInteger(u)
    ensures IsInteger(Neg(u))
  {
    var m := -u.rational.Floor;
    assert Neg(u).rational == m as real;
    assert (m as real).Floor == m;
  }

  /** A quarter turn maps whole-number points to whole-number points. */
  lemma Turn90Lattice(a: Axis, v: Vec3)
    requires IsLattice(v)
    ensures IsLattice(Turn90(a, v))
  {
    NegInteger(v.x);
    NegInteger(v.y);
    NegInteger(v.z);
  }

  /** The 45-degree step about axis a, as a map. */
  function Step45(a: Axis): Vec3 -> Vec3 {
    v => Turn45(a, v)
  }

  /** f applied k times to v. */
  function Iterate(f: Vec3 -> Vec3, k: nat, v: Vec3): Vec3
    decreases k
  {
    if k == 0 then v else f(Iterate(f, k - 1, v))
  }

  lemma {:induction false} IterateAdd(f: Vec3 -> Vec3, i: nat, j: nat, v: Vec3)
    ensures Iterate(f, i + j, v) == Iterate(f, i, Iterate(f, j, v))
    decreases i
  {
    if i > 0 {
      IterateAdd(f, i - 1, j, v);
    }
  }

  /** A map whose eighth iterate is the identity repeats with period 8. */
  lemma {:induction false} IterateMod8(f: Vec3 -> Vec3, k: nat, v: Vec3)
    requires forall u :: Iterate(f, 8, u) == u
    ensures Iterate(f, k, v) == Iterate(f, k % 8, v)
    decreases k
  {
    if k >= 8 {
      var j: nat := k - 8;
      IterateAdd(f, 8, j, v);
      IterateMod8(f, j, v);
      Mod8Of(k, j / 8 + 1, j % 8);
    }
  }

  /** Two 45-degree steps are the lattice quarter turn. */
  lemma StepTwice(a: Axis, v: Vec3)
    ensures Iterate(Step45(a), 2, v) == Turn90(a, v)
  {
    Turn45Twice(a, v);
  }

  /** Eight 45-degree steps are a full turn. */
  lemma StepEight(a: Axis)
    ensures forall v :: Iterate(Step45(a), 8, v) == v
  {
    forall v
      ensures Iterate(Step45(a), 8, v) == v
    {
      var f := Step45(a);
      var q1 := Iterate(f, 2, v);
      var q2 := Iterate(f, 2, q1);
      var q3 := Iterate(f, 2, q2);
      StepTwice(a, v);
      StepTwice(a, q1);
      StepTwice(a, q2);
      StepTwice(a, q3);
      IterateAdd(f, 2, 2, v);
      IterateAdd(f, 2, 4, v);
      IterateAdd(f, 2, 6, v);
      Turn90Four(a, v);
    }
  }

  /** k 45-degree steps keep the coordinate along the axis. */
  lemma {:induction false} StepsKeepAxis(a: Axis, k: nat, v: Vec3)
    ensures Coord(Iterate(Step45(a), k, v), a) == Coord(v, a)
    decreases k
  {
    if k > 0 {
      StepsKeepAxis(a, k - 1, v);
    }
  }

  /** Rotation by the signed angle 45 * n degrees about axis a; the coordinate
      along the axis is left alone. */
  function Rotate(a: Axis, n: int, v: Vec3): (r: Vec3)
    ensures Coord(r, a) == Coord(v, a)
  {
    StepsKeepAxis(a, n % 8, v);
    Iterate(Step45(a), n % 8, v)
  }

  /** Rotating by 45 * m and then by 45 * n degrees is rotating by 45 * (m + n). */
  lemma RotateCompose(a: Axis, m: int, n: int, v: Vec3)
    ensures Rotate(a, n, Rotate(a, m, v)) == Rotate(a, m + n, v)
  {
    var f := Step45(a);
    var i: nat := n % 8;
    var j: nat := m % 8;
    var u := Rotate(a, m, v);
    assert u == Iterate(f, j, v);
    ModSum(m, n);
    IterateAdd(f, i, j, v);
    StepEight(a);
    IterateMod8(f, i + j, v);
    assert Rotate(a, n, u) == Iterate(f, i + j, v);
  }

  /** x % 8 is the remainder of any division of x by 8. */
  lemma Mod8Of(x: int, q: int, r: int)
    requires x == 8 * q + r && 0 <= r < 8
    ensures x % 8 == r
  {
  }

  lemma ModSum(m: int, n: int)
    ensures (n % 8 + m % 8) % 8 == (m + n) % 8
  {
    var s := n % 8 + m % 8;
    var q := m / 8 + n / 8;
    if s < 8 {
      Mod8Of(s, 0, s);
      Mod8Of(m + n, q, s);
    } else {
      Mod8Of(s, 1, s - 8);
      Mod8Of(m + n, q + 1, s - 8);
    }
  }

  lemma RotateZero(a: Axis, v: Vec3)
    ensures Rotate(a, 0, v) == v
  {
  }

  /** Rotating back by the opposite angle restores the point. */
  lemma RotateInverse(a: Axis, n: int, v: Vec3)
    ensures Rotate(a, -n, Rotate(a, n, v)) == v
  {
    RotateCompose(a, n, -n, v);
  }

  lemma RotateInjective(a: Axis, n: int, u: Vec3, v: Vec3)
    ensures Rotate(a, n, u) == Rotate(a, n, v) ==> u == v
  {
    RotateInverse(a, n, u);
    RotateInverse(a, n, v);
  }

  /** A 90-degree rotation is the lattice quarter turn. */
  lemma RotateQuarter(a: Axis, v: Vec3)
    ensures Rotate(a, 2, v) == Turn90(a, v)
  {
    StepTwice(a, v);
  }

  /** An even number 2 * m of 45-degree steps keeps whole-number points whole. */
  lemma {:induction false} EvenStepsLattice(a: Axis, m: nat, v: Vec3)
    requires IsLattice(v)
    ensures IsLattice(Iterate(Step45(a), 2 * m, v))
    decreases m
  {
    if m > 0 {
      var f := Step45(a);
      var w := Iterate(f, 2 * (m - 1), v);
      EvenStepsLattice(a, m - 1, v);
      IterateAdd(f, 2, 2 * (m - 1), v);
      StepTwice(a, w);
      Turn90Lattice(a, w);
    }
  }

  /** A rotation by an even multiple of 45 degrees, that is by a multiple of
      90 degrees, keeps whole-number points whole. */
  lemma RotateEvenLattice(a: Axis, n: int, v: Vec3)
    requires IsLattice(v)
    requires n % 2 == 0
    ensures IsLattice(Rotate(a, n, v))
  {
    var r := n % 8;
    assert n == 8 * (n / 8) + r;
    assert r == 0 || r == 2 || r == 4 || r == 6;
    EvenStepsLattice(a, r / 2, v);
  }

  /** An affine 4x4 transform with bottom row (0, 0, 0, 1), stored by columns:
      three columns of its linear part and the translation column. */
  datatype Affine = Affine(c0: Vec3, c1: Vec3, c2: Vec3, t: Vec3)

  function Identity(): Affine {
    Affine(Point(1, 0, 0), Point(0, 1, 0), Point(0, 0, 1), Origin)
  }

  /** glm::translate(glm::mat4(1.0f), v). */
  function Translation(v: Vec3): Affine {
    Affine(Point(1, 0, 0), Point(0, 1, 0), Point(0, 0, 1), v)
  }

  /** translate(I, d) * m: the linear part is kept and d is added to the
      translation column. */
  function TranslateBy(d: Vec3, m: Affine): Affine {
    Affine(m.c0, m.c1, m.c2, Plus(m.t, d))
  }

  /** translate(I, c) * rotate(I, 45 * n, a) * translate(I, -c) * m: the
      linear part is rotated, the translation column is rotated about c. */
  function RotateAbout(a: Axis, n: int, c: Vec3, m: Affine): (r: Affine)
    ensures Coord(r.t, a) == Coord(m.t, a)
    ensures Coord(r.c0, a) == Coord(m.c0, a) && Coord(r.c1, a) == Coord(m.c1, a) && Coord(r.c2, a) == Coord(m.c2, a)
  {
    Affine(Rotate(a, n, m.c0), Rotate(a, n, m.c1), Rotate(a, n, m.c2),
           Plus(c, Rotate(a, n, Minus(m.t, c))))
  }

  /** The translation column's offset from c is rotated, and its coordinate
      along the axis is kept. */
  lemma RotateAboutOffset(a: Axis, n: int, c: Vec3, m: Affine)
    ensures Minus(RotateAbout(a, n, c, m).t, c) == Rotate(a, n, Minus(m.t, c))
    ensures Coord(RotateAbout(a, n, c, m).t, a) == Coord(m.t, a)
  {
  }

  /** Two rotations about the same pivot and axis compose by adding angles. */
  lemma RotateAboutCompose(a: Axis, m: int, n: int, c: Vec3, x: Affine)
    ensures RotateAbout(a, n, c, RotateAbout(a, m, c, x)) == RotateAbout(a, m + n, c, x)
  {
    RotateCompose(a, m, n, x.c0);
    RotateCompose(a, m, n, x.c1);
    RotateCompose(a, m, n, x.c2);
    RotateAboutOffset(a, m, c, x);
    RotateCompose(a, m, n, Minus(x.t, c));
  }

  /** m applied to the point v: v's coordinates weight the linear columns,
      and the translation column is added. */
  function Transform(m: Affine, v: Vec3): Vec3 {
    Plus(Plus(Plus(Scale(v.x, m.c0), Scale(v.y, m.c1)), Scale(v.z, m.c2)), m.t)
  }

  /** Scaling by zero gives the origin. */
  lemma ScaleZero(v: Vec3)
    ensures Scale(Int(0), v) == Origin
  {
    assert 0.0 * v.x.rational == 0.0 && 0.0 * v.x.radical == 0.0;
    assert 0.0 * v.y.rational == 0.0 && 0.0 * v.y.radical == 0.0;
    assert 0.0 * v.z.rational == 0.0 && 0.0 * v.z.radical == 0.0;
  }

  /** An affine map sends the origin to its translation column. */
  lemma TransformOrigin(m: Affine)
    ensures Transform(m, Origin) == m.t
  {
    ScaleZero(m.c0);
    ScaleZero(m.c1);
    ScaleZero(m.c2);
  }

  /** A rotation by a whole number of full turns changes nothing. */
  lemma RotateAboutFullTurns(a: Axis, n: int, c: Vec3, x: Affine)
    requires n % 8 == 0
    ensures RotateAbout(a, n, c, x) == x
  {
  }

  /** Rotating about c and then back by the opposite angle restores the transform. */
  lemma RotateAboutInverse(a: Axis, n: int, c: Vec3, x: Affine)
    ensures RotateAbout(a, -n, c, RotateAbout(a, n, c, x)) == x
  {
    RotateAboutCompose(a, n, -n, c, x);
    RotateAboutFullTurns(a, 0, c, x);
  }

  /** Rotations about a pivot never make two distinct translation columns meet. */
  lemma RotateAboutInjective(a: Axis, n: int, c: Vec3, x: Affine, y: Affine)
    requires x.t != y.t
    ensures RotateAbout(a, n, c, x).t != RotateAbout(a, n, c, y).t
  {
    RotateAboutOffset(a, n, c, x);
    RotateAboutOffset(a, n, c, y);
    RotateInjective(a, n, Minus(x.t, c), Minus(y.t, c));
    assert Plus(c, Minus(x.t, c)) == x.t;
    assert Plus(c, Minus(y.t, c)) == y.t;
  }

  /** A 3x3 linear map stored by columns: the product of the glm::rotate
      matrices a mouse drag builds from its float angles. */
  datatype Linear = Linear(c0: Vec3, c1: Vec3, c2: Vec3)

  function Scale(k: Surd, v: Vec3): Vec3 {
    Vec3(Mul(k, v.x), Mul(k, v.y), Mul(k, v.z))
  }

  /** l * v. */
  function Apply(l: Linear, v: Vec3): Vec3 {
    Plus(Plus(Scale(v.x, l.c0), Scale(v.y, l.c1)), Scale(v.z, l.c2))
  }

  /** l * m: every column of m, the translation column included, is mapped by l. */
  function Compose(l: Linear, m: Affine): Affine {
    Affine(Apply(l, m.c0), Apply(l, m.c1), Apply(l, m.c2), Apply(l, m.t))
  }

  /** translate(I, c) * l * translate(I, -c) * m. */
  function TurnAbout(l: Linear, c: Vec3, m: Affine): Affine {
    Affine(Apply(l, m.c0), Apply(l, m.c1), Apply(l, m.c2), Plus(c, Apply(l, Minus(m.t, c))))
  }

  /** A linear map fixes the origin. */
  lemma ApplyOrigin(l: Linear)
    ensures Apply(l, Origin) == Origin
  {
  }

  /** Turning a transform about its own translation column keeps that column:
      whatever the linear map, the transformed object stays where it is. */
  lemma TurnAboutOwnPosition(l: Linear, m: Affine)
    ensures TurnAbout(l, m.t, m).t == m.t
  {
    assert Minus(m.t, m.t) == Origin;
    ApplyOrigin(l);
  }
}

=== FILE: mixer.dfy ===
/** The mixer (handleMKey): a random number of random wall keys, each
    written to a log. `rand(k)` stands for the value of the k-th call of
    std::rand during the mix; whether the log file opens is a parameter. */
module Mixer {
  import opened Rubiks
  import opened Camera
  import opened CameraProperties

  /** The mixer's action table, in the order a random draw indexes it. */
  const MixOrder: seq<Wall> := [Right, Left, Up, Down, Back, Front]

  /** One log line: the wall named and the signed angle in degrees, both fixed
      when the action table is built before the first action. */
  datatype MixEntry = MixEntry(wall: Wall, degrees: int)

  /** The number of actions: 50 plus the first draw modulo 50. */
  function MixCount(rand: nat -> nat): (n: nat)
    ensures 50 <= n < 100
  {
    50 + rand(0) % 50
  }

  /** The wall the i-th action draws. */
  function Drawn(rand: nat -> nat, i: nat): Wall {
    MixOrder[rand(i + 1) % 6]
  }

  /** The wall keys of a log, in order. */
  function Walls(log: seq<MixEntry>): seq<Wall> {
    seq(|log|, i requires 0 <= i < |log| => log[i].wall)
  }

  lemma WallsSnoc(log: seq<MixEntry>, e: MixEntry)
    ensures Walls(log + [e]) == Walls(log) + [e.wall]
  {
  }

  /** The wall keys ws pressed one after another, each through its lock check. */
  function ApplyWallKeys(s: RubiksCube, ws: seq<Wall>): (r: RubiksCube)
    ensures r == s.(cubes := r.cubes, locks := r.locks)
    ensures forall i: Slot :: r.cubes[i].index == s.cubes[i].index
    ensures LocksInOnePair(s.locks) ==> LocksInOnePair(r.locks)
    decreases |ws|
  {
    if ws == [] then s else ApplyWallKeys(HandleWallKey(s, ws[0]), ws[1..])
  }

  /** Pressing one more key after a run of keys. */
  lemma {:induction false} ApplyWallKeysSnoc(s: RubiksCube, ws: seq<Wall>, w: Wall)
    ensures ApplyWallKeys(s, ws + [w]) == HandleWallKey(ApplyWallKeys(s, ws), w)
    decreases |ws|
  {
    if ws == [] {
      assert [] + [w] == [w];
      assert [w][1..] == [];
    } else {
      assert (ws + [w])[0] == ws[0];
      assert (ws + [w])[1..] == ws[1..] + [w];
      ApplyWallKeysSnoc(HandleWallKey(s, ws[0]), ws[1..], w);
    }
  }

  /** The first n lines of the mixer's log. */
  function MixLog(rand: nat -> nat, degrees: int, n: nat): seq<MixEntry> {
    seq(n, i requires 0 <= i < n => MixEntry(Drawn(rand, i), degrees))
  }

  /** handleMKey. If the log file cannot be opened nothing happens. Otherwise
      MixCount(rand) actions are drawn, the i-th naming Drawn(rand, i); each
      is pressed as its wall key and logged with the signed angle, whether or
      not its lock check let the wall turn. */
  method Mix(s: RubiksCube, fileOpens: bool, rand: nat -> nat) returns (r: RubiksCube, log: seq<MixEntry>)
    ensures !fileOpens ==> r == s && log == []
    ensures fileOpens ==> log == MixLog(rand, SignedAngle(s), MixCount(rand))
    ensures r == ApplyWallKeys(s, Walls(log))
  {
    r, log := s, [];
    if !fileOpens {
      return;
    }
    var degrees := SignedAngle(s);
    var count := MixCount(rand);
    var i := 0;
    while i < count
      invariant 0 <= i <= count
      invariant log == MixLog(rand, degrees, i)
      invariant r == ApplyWallKeys(s, Walls(log))
    {
      MixStep(s, r, rand, degrees, i, log);
      r := HandleWallKey(r, Drawn(rand, i));
      log := log + [MixEntry(Drawn(rand, i), degrees)];
      i := i + 1;
    }
  }

  /** One action of the mixer extends both its log and the run of keys it
      has pressed by the i-th draw. */
  lemma MixStep(s: RubiksCube, r: RubiksCube, rand: nat -> nat, degrees: int, i: nat, log: seq<MixEntry>)
    requires log == MixLog(rand, degrees, i)
    requires r == ApplyWallKeys(s, Walls(log))
    ensures log + [MixEntry(Drawn(rand, i), degrees)] == MixLog(rand, degrees, i + 1)
    ensures HandleWallKey(r, Drawn(rand, i)) == ApplyWallKeys(s, Walls(log + [MixEntry(Drawn(rand, i), degrees)]))
  {
    var e := MixEntry(Drawn(rand, i), degrees);
    ApplyWallKeysSnoc(s, Walls(log), e.wall);
    WallsSnoc(log, e);
  }

  function Reverse(ws: seq<Wall>): (r: seq<Wall>)
    ensures |r| == |ws|
    ensures forall i :: 0 <= i < |ws| ==> r[i] == ws[|ws| - 1 - i]
  {
    if ws == [] then [] else Reverse(ws[1..]) + [ws[0]]
  }

  /** Any run of wall keys, the mixer's included, is undone by pressing space,
      replaying the keys in reverse order and pressing space again. Keys that
      were blocked stay blocked on the way back, and keys that turned a wall
      turn it back. */
  lemma {:induction false} MixUndo(s: RubiksCube, ws: seq<Wall>)
    ensures HandleSpace(ApplyWallKeys(HandleSpace(ApplyWallKeys(s, ws)), Reverse(ws))) == s
    decreases |ws|
  {
    if ws != [] {
      var w := ws[0];
      var s1 := HandleWallKey(s, w);
      var mid := HandleSpace(ApplyWallKeys(s1, ws[1..]));
      assert ApplyWallKeys(s, ws) == ApplyWallKeys(s1, ws[1..]);
      MixUndo(s1, ws[1..]);
      ApplyWallKeysSnoc(mid, Reverse(ws[1..]), w);
      assert ApplyWallKeys(mid, Reverse(ws[1..])) == HandleSpace(s1);
      WallKeyUndo(s, w);
    }
  }
}

=== FILE: numbers.dfy ===
/** Exact scalars for sub-cube coordinates.

  The cube's transforms are products of translations by whole units and
  rotations by 45, 90 and 180 degrees. Every coordinate such products give
  an integer point lies in the field Q(sqrt 2): it is a + b*sqrt 2 with
  rational a and b. Because sqrt 2 is irrational that pair is unique, so for
  rational parts two coordinates are equal exactly when both parts are
  equal, and the datatype's own equality is the geometric one.

  The parts are meant to be rational. The fields are `real`, so a
  translation built with FromReal from an irrational real (a sensitivity or
  a drag distance) would leave the field; the constructor, the wall turns
  and the keys only ever produce rational parts, and equality is geometric
  for those.
 */
module Numbers {

  /** The value rational + radical * sqrt 2. */
  datatype Surd = Surd(rational: real, radical: real)

  function Int(n: int): Surd {
    Surd(n as real, 0.0)
  }

  function FromReal(r: real): Surd {
    Surd(r, 0.0)
  }

  function Add(u: Surd, v: Surd): Surd {
    Surd(u.rational + v.rational, u.radical + v.radical)
  }

  function Sub(u: Surd, v: Surd): Surd {
    Surd(u.rational - v.rational, u.radical - v.radical)
  }

  function Neg(u: Surd): Surd {
    Surd(-u.rational, -u.radical)
  }

  /** (a + b sqrt 2) (c + d sqrt 2) = (a c + 2 b d) + (a d + b c) sqrt 2. */
  function Mul(u: Surd, v: Surd): Surd {
    Surd(u.rational * v.rational + 2.0 * u.radical * v.radical,
         u.rational * v.radical + u.radical * v.rational)
  }

  /** u * (sqrt 2 / 2), that is u times cos 45 = sin 45:
      (a + b sqrt 2) * sqrt 2 / 2 = b + (a / 2) sqrt 2. */
  function Cos45Times(u: Surd): Surd {
    Surd(u.radical, u.rational / 2.0)
  }

  /** u is a whole number. */
  predicate IsInteger(u: Surd) {
    u.radical == 0.0 && u.rational == u.rational.Floor as real
  }
}

=== FILE: options.dfy ===
/** A value that may be absent; stands for a nullable pointer. */
module Options {

  datatype Option<+T> = None | Some(value: T)
}

=== FILE: rubiks_cube.dfy ===
/** The assembly of 27 sub-cubes (class RubiksCube): generation, wall
    membership, wall rotations, the face locks that gate them, and the arrow
    moves that translate the whole assembly. */
module Rubiks {
  import opened Options
  import opened Numbers
  import opened Geometry
  import opened SmallCubes

  /** A position in the vector of sub-cubes. */
  type Slot = i: int | 0 <= i < 27

  /** The vector of sub-cubes: created once with 27 entries, never resized. */
  type Grid = g: seq<SmallCube> | |g| == 27
    witness seq(27, _ => SmallCube(0, Identity(), Identity()))

  /** An entry of the lock array: 0 right, 1 left, 2 up, 3 down, 4 back, 5 front. */
  type LockSlot = k: int | 0 <= k < 6

  type Locks = l: seq<bool> | |l| == 6
    witness [false, false, false, false, false, false]

  datatype Wall = Right | Left | Up | Down | Back | Front

  /** RotationDirection: starts at 1 and is only ever negated. */
  type Sign = d: int | d == 1 || d == -1 witness 1

  /** The other direction: RotationDirection = -RotationDirection. */
  function Flip(d: Sign): (r: Sign)
    ensures r != d
  {
    if d == 1 then -1 else 1
  }

  /** RotationAngle in degrees: starts at 90 and is only ever halved with a
      floor of 45 or doubled with a ceiling of 180. */
  type Angle = a: int | a == 45 || a == 90 || a == 180 witness 90

  /** The state of the assembly. `center` and `selected` stand for the
      non-owning pointers centerCube and selectedCube: slots of `cubes`. */
  datatype RubiksCube = RubiksCube(
    cubes: Grid,
    direction: Sign,
    angle: Angle,
    sensitivity: real,
    locks: Locks,
    picking: bool,
    center: Slot,
    selected: Option<Slot>)

  const NoLocks: Locks := [false, false, false, false, false, false]

  /** The grid point of the sub-cube generated i-th: x, y and z each range over
      -1..1, x outermost and z innermost. */
  function GridPosition(i: Slot): Vec3 {
    Point(i / 9 - 1, (i / 3) % 3 - 1, i % 3 - 1)
  }

  /** The i-th generated sub-cube has identity i and the grid point
      (x, y, z) with i = 9 (x + 1) + 3 (y + 1) + (z + 1). */
  lemma GridPositionOf(x: int, y: int, z: int)
    requires -1 <= x <= 1 && -1 <= y <= 1 && -1 <= z <= 1
    ensures 0 <= 9 * (x + 1) + 3 * (y + 1) + (z + 1) < 27
    ensures GridPosition(9 * (x + 1) + 3 * (y + 1) + (z + 1)) == Point(x, y, z)
  {
    var i := 9 * (x + 1) + 3 * (y + 1) + (z + 1);
    var r := 3 * (y + 1) + (z + 1);
    assert 0 <= r < 9;
    assert i / 9 == x + 1;
    assert i / 3 == 3 * (x + 1) + (y + 1);
    assert (i / 3) % 3 == y + 1;
    assert i % 3 == z + 1;
  }

  /** The sub-cubes as generateSmallCubes leaves them. */
  function InitialGrid(): Grid {
    seq(27, i requires 0 <= i < 27 => NewSmallCube(GridPosition(i), i))
  }

  /** The state the constructor leaves: direction 1, angle 90, sensitivity 1,
      picking off, no lock set, the center at slot 13, nothing selected. */
  function Initial(): RubiksCube {
    RubiksCube(InitialGrid(), 1, 90, 1.0, NoLocks, false, 13, None)
  }

  /** generateSmallCubes: three nested loops over -1..1 that append the
      sub-cube for (x, y, z) with the next identity and remember the one with
      identity 13 as the center. */
  method GenerateSmallCubes() returns (cubes: Grid, center: Slot)
    ensures forall i: Slot :: cubes[i].index == i
    ensures forall i: Slot :: cubes[i] == NewSmallCube(GridPosition(i), i)
    ensures center == 13 && GetPosition(cubes[center]) == Origin
  {
    var acc: seq<SmallCube> := [];
    var found: Option<Slot> := None;
    var index := 0;
    var x := -1;
    while x <= 1
      invariant -1 <= x <= 2
      invariant index == 9 * (x + 1) == |acc|
      invariant forall j :: 0 <= j < |acc| ==> acc[j] == NewSmallCube(GridPosition(j), j)
      invariant found == if index > 13 then Some(13) else None
    {
      var y := -1;
      while y <= 1
        invariant -1 <= y <= 2
        invariant index == 9 * (x + 1) + 3 * (y + 1) == |acc|
        invariant forall j :: 0 <= j < |acc| ==> acc[j] == NewSmallCube(GridPosition(j), j)
        invariant found == if index > 13 then Some(13) else None
      {
        var z := -1;
        while z <= 1
          invariant -1 <= z <= 2
          invariant index == 9 * (x + 1) + 3 * (y + 1) + (z + 1) == |acc|
          invariant forall j :: 0 <= j < |acc| ==> acc[j] == NewSmallCube(GridPosition(j), j)
          invariant found == if index > 13 then Some(13) else None
        {
          var pos := Point(x, y, z);
          GridPositionOf(x, y, z);
          var cube := NewSmallCube(pos, index);
          cube := SetModelMatrix(cube, Translation(pos));
          acc := acc + [cube];
          if index == 13 {
            found := Some(index);
          }
          index := index + 1;
          z := z + 1;
        }
        y := y + 1;
      }
      x := x + 1;
    }
    cubes := acc;
    center := found.value;
  }

  /** The constructor RubiksCube(). */
  method Construct() returns (s: RubiksCube)
    ensures s == Initial()
  {
    var cubes, center := GenerateSmallCubes();
    assert cubes == InitialGrid();
    s := RubiksCube(cubes, 1, 90, 1.0, NoLocks, false, center, None);
  }

  /** getPosition: the center sub-cube's position, the pivot of every wall. */
  function Position(s: RubiksCube): Vec3 {
    GetPosition(s.cubes[s.center])
  }

  function AxisOf(w: Wall): Axis {
    match w
    case Right | Left => X
    case Up | Down => Y
    case Back | Front => Z
  }

  /** +1 for right, up and back; -1 for left, down and front. */
  function Side(w: Wall): int {
    match w
    case Right | Up | Back => 1
    case Left | Down | Front => -1
  }

  function LockIndex(w: Wall): LockSlot {
    match w
    case Right => 0
    case Left => 1
    case Up => 2
    case Down => 3
    case Back => 4
    case Front => 5
  }

  /** Wall membership, recomputed from live positions: the coordinate along
      the wall's axis is the center's coordinate plus the wall's side. */
  predicate InWall(w: Wall, c: Vec3, p: Vec3) {
    Coord(p, AxisOf(w)) == Add(Coord(c, AxisOf(w)), Int(Side(w)))
  }

  /** A member of w sits one unit from the pivot along w's axis: it is never
      level with the pivot, and never in the opposite wall of that axis. */
  lemma InWallOneSide(w: Wall, c: Vec3, p: Vec3)
    requires InWall(w, c, p)
    ensures Coord(p, AxisOf(w)) != Coord(c, AxisOf(w))
    ensures forall v: Wall :: AxisOf(v) == AxisOf(w) && v != w ==> !InWall(v, c, p)
  {
  }

  /** The slots of the current members of wall w. */
  function WallSlots(s: RubiksCube, w: Wall): set<int> {
    set i | 0 <= i < 27 && InWall(w, Position(s), GetPosition(s.cubes[i]))
  }

  function Abs(n: int): int {
    if n < 0 then -n else n
  }

  /** The signed angle RotationAngle * RotationDirection in degrees. */
  function SignedAngle(s: RubiksCube): (d: int)
    ensures d == s.angle * s.direction
  {
    if s.direction == 1 then s.angle else -(s.angle as int)
  }

  /** The signed angle RotationAngle * RotationDirection, in 45-degree units. */
  function Eighths(s: RubiksCube): (n: int)
    ensures 45 * n == s.angle * s.direction
    ensures n % 2 == 1 <==> s.angle == 45
  {
    var e := if s.angle == 45 then 1 else if s.angle == 90 then 2 else 4;
    if s.direction == 1 then e else -e
  }

  function Toggle(l: Locks, k: LockSlot): Locks {
    l[k := !l[k]]
  }

  /** The loop body of rotate*Wall applied to every sub-cube: members of w
      relative to pivot c are rotated by 45 * n degrees about c. */
  function RotateMembers(cubes: Grid, w: Wall, c: Vec3, n: int): (r: Grid)
    ensures forall i: Slot :: r[i].index == cubes[i].index
    ensures forall i: Slot :: !InWall(w, c, GetPosition(cubes[i])) ==> r[i] == cubes[i]
    ensures forall i: Slot :: InWall(w, c, GetPosition(r[i])) <==> InWall(w, c, GetPosition(cubes[i]))
    ensures forall i: Slot :: InWall(w, c, GetPosition(cubes[i])) ==>
      Minus(GetPosition(r[i]), c) == Rotate(AxisOf(w), n, Minus(GetPosition(cubes[i]), c))
    ensures forall i: Slot :: InWall(w, c, GetPosition(cubes[i])) ==>
      var m, m' := GetModelMatrix(cubes[i]), GetModelMatrix(r[i]);
      m'.c0 == Rotate(AxisOf(w), n, m.c0) && m'.c1 == Rotate(AxisOf(w), n, m.c1) && m'.c2 == Rotate(AxisOf(w), n, m.c2)
    ensures forall i: Slot :: GetRotationMatrix(r[i]) == GetRotationMatrix(cubes[i])
  {
    seq(27, i requires 0 <= i < 27 =>
      var cube := cubes[i];
      if InWall(w, c, GetPosition(cube))
      then SetModelMatrix(cube, RotateAbout(AxisOf(w), n, c, GetModelMatrix(cube)))
      else cube)
  }

  /** rotateRightWall .. rotateFrontWall. Each member's offset from the pivot
      is rotated by the signed angle about w's axis; only members move, the
      center is never a member so the pivot stays put, the members stay
      members, and only w's own lock changes: it toggles exactly when |angle|
      is 45. */
  function RotateWall(s: RubiksCube, w: Wall): (r: RubiksCube)
    ensures Position(r) == Position(s)
    ensures forall i: Slot :: !InWall(w, Position(s), GetPosition(s.cubes[i])) ==> r.cubes[i] == s.cubes[i]
    ensures forall i: Slot :: InWall(w, Position(r), GetPosition(r.cubes[i])) <==> InWall(w, Position(s), GetPosition(s.cubes[i]))
    ensures forall i: Slot :: InWall(w, Position(s), GetPosition(s.cubes[i])) ==>
      Minus(GetPosition(r.cubes[i]), Position(s)) == Rotate(AxisOf(w), Eighths(s), Minus(GetPosition(s.cubes[i]), Position(s)))
    ensures forall i: Slot :: InWall(w, Position(s), GetPosition(s.cubes[i])) ==>
      var m, m' := GetModelMatrix(s.cubes[i]), GetModelMatrix(r.cubes[i]);
      m'.c0 == Rotate(AxisOf(w), Eighths(s), m.c0) && m'.c1 == Rotate(AxisOf(w), Eighths(s), m.c1) && m'.c2 == Rotate(AxisOf(w), Eighths(s), m.c2)
    ensures forall i: Slot :: GetRotationMatrix(r.cubes[i]) == GetRotationMatrix(s.cubes[i])
    ensures forall i: Slot :: r.cubes[i].index == s.cubes[i].index
    ensures r.locks[LockIndex(w)] == (s.locks[LockIndex(w)] != (Abs(s.angle) == 45))
    ensures forall k: LockSlot :: k != LockIndex(w) ==> r.locks[k] == s.locks[k]
    ensures r == s.(cubes := r.cubes, locks := r.locks)
  {
    var c := Position(s);
    var cubes := RotateMembers(s.cubes, w, c, Eighths(s));
    var locks := if Abs(s.angle) == 45 then Toggle(s.locks, LockIndex(w)) else s.locks;
    s.(cubes := cubes, locks := locks)
  }

  /** canRotateRightWall .. canRotateFrontWall: a wall may turn unless a lock
      of a wall on another axis is set; locks of its own axis never block it. */
  function CanRotate(s: RubiksCube, w: Wall): (b: bool)
    ensures b <==> forall k: LockSlot :: k / 2 != LockIndex(w) / 2 ==> !s.locks[k]
  {
    match w
    case Right | Left => !(s.locks[2] || s.locks[3] || s.locks[4] || s.locks[5])
    case Up | Down => !(s.locks[0] || s.locks[1] || s.locks[4] || s.locks[5])
    case Back | Front => !(s.locks[0] || s.locks[1] || s.locks[2] || s.locks[3])
  }

  /** Set locks all belong to one axis pair: right/left, up/down or back/front. */
  predicate LocksInOnePair(l: Locks) {
    forall i: LockSlot, j: LockSlot :: l[i] && l[j] ==> i / 2 == j / 2
  }

  datatype Arrow = UpArrow | DownArrow | LeftArrow | RightArrow

  /** The translation an arrow key applies: up -y, down +y, right -x, left +x,
      each by the sensitivity. */
  function ArrowShift(a: Arrow, sensitivity: real): Vec3 {
    match a
    case UpArrow => Vec3(Int(0), FromReal(-sensitivity), Int(0))
    case DownArrow => Vec3(Int(0), FromReal(sensitivity), Int(0))
    case RightArrow => Vec3(FromReal(-sensitivity), Int(0), Int(0))
    case LeftArrow => Vec3(FromReal(sensitivity), Int(0), Int(0))
  }

  /** UpArrow .. RightArrow: every sub-cube is translated by the same vector;
      its linear part and its rotation matrix are kept. */
  function MoveAll(s: RubiksCube, a: Arrow): (r: RubiksCube)
    ensures forall i: Slot :: GetPosition(r.cubes[i]) == Plus(GetPosition(s.cubes[i]), ArrowShift(a, s.sensitivity))
    ensures forall i: Slot :: GetRotationMatrix(r.cubes[i]) == GetRotationMatrix(s.cubes[i])
    ensures forall i: Slot :: var m, m' := GetModelMatrix(s.cubes[i]), GetModelMatrix(r.cubes[i]);
      m'.c0 == m.c0 && m'.c1 == m.c1 && m'.c2 == m.c2
    ensures forall i: Slot :: r.cubes[i].index == s.cubes[i].index
    ensures r == s.(cubes := r.cubes)
  {
    var d := ArrowShift(a, s.sensitivity);
    var cubes: Grid := seq(27, i requires 0 <= i < 27 =>
      SetModelMatrix(s.cubes[i], TranslateBy(d, GetModelMatrix(s.cubes[i]))));
    s.(cubes := cubes)
  }
}

=== FILE: rubiks_cube_properties.dfy ===
/** What generation, wall rotations and arrow moves guarantee about the
    assembly: the initial grid, wall sizes, round trips, and that no two
    sub-cubes ever come to share a position. */
module RubiksProperties {
  import opened Options
  import opened Numbers
  import opened Geometry
  import opened SmallCubes
  import opened Rubiks

  // ---------------------------------------------------------------------
  // The generated grid
  // ---------------------------------------------------------------------

  /** Every coordinate of a grid point is -1, 0 or 1. */
  predicate InUnitGrid(v: Vec3) {
    && (v.x == Int(-1) || v.x == Int(0) || v.x == Int(1))
    && (v.y == Int(-1) || v.y == Int(0) || v.y == Int(1))
    && (v.z == Int(-1) || v.z == Int(0) || v.z == Int(1))
  }

  /** Identities 0..26 map one-to-one onto the 27 points of {-1, 0, 1}^3. */
  lemma GridPositionBijective()
    ensures forall i: Slot :: InUnitGrid(GridPosition(i))
    ensures forall i: Slot, j: Slot :: GridPosition(i) == GridPosition(j) ==> i == j
    ensures forall x: int, y: int, z: int | -1 <= x <= 1 && -1 <= y <= 1 && -1 <= z <= 1 ::
      GridPosition(9 * (x + 1) + 3 * (y + 1) + (z + 1)) == Point(x, y, z)
  {
    forall i: Slot
      ensures InUnitGrid(GridPosition(i))
    {
      var x, y, z := SlotDigits(i);
    }
    forall i: Slot, j: Slot | GridPosition(i) == GridPosition(j)
      ensures i == j
    {
      var x, y, z := SlotDigits(i);
      var x', y', z' := SlotDigits(j);
    }
    forall x: int, y: int, z: int | -1 <= x <= 1 && -1 <= y <= 1 && -1 <= z <= 1
      ensures GridPosition(9 * (x + 1) + 3 * (y + 1) + (z + 1)) == Point(x, y, z)
    {
      GridPositionOf(x, y, z);
    }
  }

  /** Every slot is the slot of a grid point (x, y, z), returned here. */
  lemma SlotDigits(i: Slot) returns (x: int, y: int, z: int)
    ensures -1 <= x <= 1 && -1 <= y <= 1 && -1 <= z <= 1
    ensures i == 9 * (x + 1) + 3 * (y + 1) + (z + 1)
    ensures GridPosition(i) == Point(x, y, z)
  {
    var q := i / 3;
    assert i == 3 * q + i % 3;
    assert q == 3 * (q / 3) + q % 3;
    x, y, z := q / 3 - 1, q % 3 - 1, i % 3 - 1;
    GridPositionOf(x, y, z);
  }

  /** The constructed state: 27 sub-cubes whose identities are their slots,
      sub-cube i at its grid point, the center of identity 13 at the origin,
      direction 1, angle 90, picking off, no lock set and nothing selected. */
  lemma InitialAssembly()
    ensures var s := Initial();
      && (forall i: Slot :: s.cubes[i].index == i && GetPosition(s.cubes[i]) == GridPosition(i))
      && s.cubes[s.center].index == 13 && Position(s) == Origin
      && s.direction == 1 && s.angle == 90 && !s.picking && s.selected == None
      && (forall k: LockSlot :: !s.locks[k])
  {
  }

  // ---------------------------------------------------------------------
  // Walls in the initial grid
  // ---------------------------------------------------------------------

  /** The slots of each wall right after generation. */
  function InitialWall(w: Wall): set<int> {
    match w
    case Right => {18, 19, 20, 21, 22, 23, 24, 25, 26}
    case Left => {0, 1, 2, 3, 4, 5, 6, 7, 8}
    case Up => {6, 7, 8, 15, 16, 17, 24, 25, 26}
    case Down => {0, 1, 2, 9, 10, 11, 18, 19, 20}
    case Back => {2, 5, 8, 11, 14, 17, 20, 23, 26}
    case Front => {0, 3, 6, 9, 12, 15, 18, 21, 24}
  }

  /** Right after generation every wall has exactly nine members. */
  lemma InitialWallSizes(w: Wall)
    ensures WallSlots(Initial(), w) == InitialWall(w)
    ensures |WallSlots(Initial(), w)| == 9
  {
    forall i: Slot
      ensures InWall(w, Position(Initial()), GetPosition(Initial().cubes[i])) <==> i in InitialWall(w)
    {
      InitialWallSlot(w, i);
    }
    InitialWallRange(w);
    SlotsAre(Initial(), w, InitialWall(w));
    InitialWallCard(w);
  }

  /** Right after generation slot i is a member of w exactly when it is listed
      for w. */
  lemma InitialWallSlot(w: Wall, i: Slot)
    ensures InWall(w, Position(Initial()), GetPosition(Initial().cubes[i])) <==> i in InitialWall(w)
  {
    var x, y, z := InitialPoint(i);
    InitialWallMember(w, x, y, z);
  }

  /** A set of slots that holds exactly the members of w is w's wall. */
  lemma SlotsAre(s: RubiksCube, w: Wall, slots: set<int>)
    requires forall i: Slot :: InWall(w, Position(s), GetPosition(s.cubes[i])) <==> i in slots
    requires forall i :: i in slots ==> 0 <= i < 27
    ensures WallSlots(s, w) == slots
  {
  }

  lemma InitialWallRange(w: Wall)
    ensures forall i :: i in InitialWall(w) ==> 0 <= i < 27
  {
  }

  /** Right after generation the pivot is the origin and slot i holds the
      grid point returned. */
  lemma InitialPoint(i: Slot) returns (x: int, y: int, z: int)
    ensures -1 <= x <= 1 && -1 <= y <= 1 && -1 <= z <= 1
    ensures i == 9 * (x + 1) + 3 * (y + 1) + (z + 1)
    ensures Position(Initial()) == Origin
    ensures GetPosition(Initial().cubes[i]) == Point(x, y, z)
  {
    GridPositionOf(0, 0, 0);
    x, y, z := SlotDigits(i);
  }

  /** The grid point (x, y, z) is in wall w about the origin exactly when its
      slot is listed for w. */
  lemma InitialWallMember(w: Wall, x: int, y: int, z: int)
    requires -1 <= x <= 1 && -1 <= y <= 1 && -1 <= z <= 1
    ensures 9 * (x + 1) + 3 * (y + 1) + (z + 1) in InitialWall(w) <==> InWall(w, Origin, Point(x, y, z))
  {
    var k := 9 * (x + 1) + 3 * (y + 1) + (z + 1);
    var inside := InWall(w, Origin, Point(x, y, z));
    if y == -1 {
      assert k % 9 == z + 1;
    } else if y == 0 {
      assert k % 9 == z + 4;
    } else {
      assert k % 9 == z + 7;
    }
    match w
    case Right => assert inside <==> x == 1;
    case Left => assert inside <==> x == -1;
    case Up => assert inside <==> y == 1;
    case Down => assert inside <==> y == -1;
    case Back => assert inside <==> z == 1;
    case Front => assert inside <==> z == -1;
  }

  lemma InitialWallCard(w: Wall)
    ensures |InitialWall(w)| == 9
  {
    match w
    case Right => NineCard(18, 19, 20, 21, 22, 23, 24, 25, 26);
    case Left => NineCard(0, 1, 2, 3, 4, 5, 6, 7, 8);
    case Up => NineCard(6, 7, 8, 15, 16, 17, 24, 25, 26);
    case Down => NineCard(0, 1, 2, 9, 10, 11, 18, 19, 20);
    case Back => NineCard(2, 5, 8, 11, 14, 17, 20, 23, 26);
    case Front => NineCard(0, 3, 6, 9, 12, 15, 18, 21, 24);
  }

  lemma NineCard(a: int, b: int, c: int, d: int, e: int, f: int, g: int, h: int, k: int)
    requires a < b < c < d < e < f < g < h < k
    ensures |{a, b, c, d, e, f, g, h, k}| == 9
  {
  }

  /** The number of walls that hold the sub-cube in slot i. */
  function WallCount(s: RubiksCube, i: Slot): int {
    var c := Position(s);
    var p := GetPosition(s.cubes[i]);
    (if InWall(Right, c, p) then 1 else 0) + (if InWall(Left, c, p) then 1 else 0)
    + (if InWall(Up, c, p) then 1 else 0) + (if InWall(Down, c, p) then 1 else 0)
    + (if InWall(Back, c, p) then 1 else 0) + (if InWall(Front, c, p) then 1 else 0)
  }

  /** The number of nonzero coordinates of v. */
  function NonZeroCount(v: Vec3): int {
    (if v.x != Int(0) then 1 else 0) + (if v.y != Int(0) then 1 else 0) + (if v.z != Int(0) then 1 else 0)
  }

  /** Right after generation a sub-cube lies in as many walls as it has
      nonzero coordinates: corners 3, edges 2, face centres 1, the center 0. */
  lemma InitialWallCount(i: Slot)
    ensures WallCount(Initial(), i) == NonZeroCount(GridPosition(i))
    ensures WallCount(Initial(), i) == 0 <==> i == 13
  {
    var x, y, z := InitialPoint(i);
  }

  // ---------------------------------------------------------------------
  // Wall rotations
  // ---------------------------------------------------------------------

  /** Rotating the members of one wall by m and then by n eighth turns is
      rotating them by m + n: the member set is the same for both turns. */
  lemma RotateMembersCompose(cubes: Grid, w: Wall, c: Vec3, m: int, n: int)
    ensures RotateMembers(RotateMembers(cubes, w, c, m), w, c, n) == RotateMembers(cubes, w, c, m + n)
  {
    var once := RotateMembers(cubes, w, c, m);
    var twice := RotateMembers(once, w, c, n);
    var direct := RotateMembers(cubes, w, c, m + n);
    forall i: Slot
      ensures twice[i] == direct[i]
    {
      if InWall(w, c, GetPosition(cubes[i])) {
        RotateAboutCompose(AxisOf(w), m, n, c, cubes[i].model);
      }
    }
    assert twice == direct;
  }

  /** Whole turns leave every sub-cube where it was. */
  lemma RotateMembersFullTurns(cubes: Grid, w: Wall, c: Vec3, n: int)
    requires n % 8 == 0
    ensures RotateMembers(cubes, w, c, n) == cubes
  {
    var r := RotateMembers(cubes, w, c, n);
    forall i: Slot
      ensures r[i] == cubes[i]
    {
      RotateAboutFullTurns(AxisOf(w), n, c, cubes[i].model);
    }
    assert r == cubes;
  }

  /** Rotating a wall, flipping the direction and rotating the same wall again
      restores every sub-cube and every lock: the state differs from the
      original only in its flipped direction. */
  lemma RotateWallTurnBack(s: RubiksCube, w: Wall)
    ensures var r := RotateWall(s, w);
      RotateWall(r.(direction := Flip(r.direction)), w) == s.(direction := Flip(s.direction))
  {
    var r := RotateWall(s, w);
    var back := r.(direction := Flip(r.direction));
    TurnBackCubes(s, w);
    assert RotateWall(back, w).locks == s.locks;
  }

  /** The sub-cube half of RotateWallTurnBack: the second turn is by the
      opposite number of eighths about the same pivot. */
  lemma TurnBackCubes(s: RubiksCube, w: Wall)
    ensures var r := RotateWall(s, w);
      RotateWall(r.(direction := Flip(r.direction)), w).cubes == s.cubes
  {
    var r := RotateWall(s, w);
    var back := r.(direction := Flip(r.direction));
    var c := Position(s);
    var n := Eighths(s);
    assert Position(back) == c;
    assert Eighths(back) == -n;
    RotateMembersCompose(s.cubes, w, c, n, -n);
    RotateMembersFullTurns(s.cubes, w, c, 0);
  }

  /** Two successive turns of one wall move its members by twice the angle
      and leave every lock as it was. */
  lemma TwoTurns(s: RubiksCube, w: Wall)
    ensures RotateWall(RotateWall(s, w), w)
      == s.(cubes := RotateMembers(s.cubes, w, Position(s), Eighths(s) + Eighths(s)))
  {
    var r := RotateWall(s, w);
    RotateMembersCompose(s.cubes, w, Position(s), Eighths(s), Eighths(s));
    assert RotateWall(r, w).locks == s.locks;
  }

  /** Four 90-degree turns of one wall restore the whole state. */
  lemma FourQuarterTurns(s: RubiksCube, w: Wall)
    requires s.angle == 90
    ensures RotateWall(RotateWall(RotateWall(RotateWall(s, w), w), w), w) == s
  {
    var c := Position(s);
    var n := Eighths(s);
    var t := RotateWall(RotateWall(s, w), w);
    TwoTurns(s, w);
    assert Position(t) == c && Eighths(t) == n;
    TwoTurns(t, w);
    RotateMembersCompose(s.cubes, w, c, n + n, n + n);
    assert n + n + n + n == 8 * s.direction;
    RotateMembersFullTurns(s.cubes, w, c, n + n + n + n);
  }

  /** Two 180-degree turns of one wall restore the whole state. */
  lemma TwoHalfTurns(s: RubiksCube, w: Wall)
    requires s.angle == 180
    ensures RotateWall(RotateWall(s, w), w) == s
  {
    TwoTurns(s, w);
    assert Eighths(s) + Eighths(s) == 8 * s.direction;
    RotateMembersFullTurns(s.cubes, w, Position(s), Eighths(s) + Eighths(s));
  }

  /** Two 45-degree turns of a wall move the sub-cubes exactly as one
      90-degree turn, and toggle the wall's lock back to where it was. */
  lemma TwoEighthTurns(s: RubiksCube, w: Wall)
    requires s.angle == 45
    ensures RotateWall(RotateWall(s, w), w) == RotateWall(s.(angle := 90), w).(angle := 45)
    ensures RotateWall(RotateWall(s, w), w).locks == s.locks
  {
    TwoTurns(s, w);
    assert Eighths(s.(angle := 90)) == Eighths(s) + Eighths(s);
  }

  /** The first R from the constructed cube: every sub-cube with x = 1 goes
      to the quarter-turned grid point about X, (x, y, z) to (x, -z, y), and
      every other sub-cube stays where it was. */
  lemma InitialRightTurn(i: Slot)
    ensures var p := GridPosition(i);
      var q := GetPosition(RotateWall(Initial(), Right).cubes[i]);
      if p.x == Int(1) then q == Turn90(X, p) else q == p
  {
    var s := Initial();
    var p := GridPosition(i);
    assert Position(s) == Origin;
    assert Eighths(s) == 2;
    assert GetPosition(s.cubes[i]) == p;
    assert Minus(p, Origin) == p;
    var q := GetPosition(RotateWall(s, Right).cubes[i]);
    if p.x == Int(1) {
      RotateQuarter(X, p);
      assert Minus(q, Origin) == q;
    }
  }

  /** The pivot of a wall rotation is never itself a member of a wall. */
  lemma CenterInNoWall(s: RubiksCube, w: Wall)
    ensures !InWall(w, Position(s), Position(s))
    ensures s.center !in WallSlots(s, w)
  {
  }

  // ---------------------------------------------------------------------
  // Distinct positions
  // ---------------------------------------------------------------------

  /** No two sub-cubes share a position. */
  predicate Distinct(s: RubiksCube) {
    forall i: Slot, j: Slot :: i != j ==> GetPosition(s.cubes[i]) != GetPosition(s.cubes[j])
  }

  lemma InitialDistinct()
    ensures Distinct(Initial())
  {
    GridPositionBijective();
  }

  /** A wall rotation never makes two sub-cubes collide: members stay members
      and are moved by an invertible map, non-members do not move. */
  lemma RotateWallKeepsDistinct(s: RubiksCube, w: Wall)
    requires Distinct(s)
    ensures Distinct(RotateWall(s, w))
  {
    var r := RotateWall(s, w);
    var c := Position(s);
    forall i: Slot, j: Slot | i != j
      ensures GetPosition(r.cubes[i]) != GetPosition(r.cubes[j])
    {
      var mi := InWall(w, c, GetPosition(s.cubes[i]));
      var mj := InWall(w, c, GetPosition(s.cubes[j]));
      if mi && mj {
        RotateAboutInjective(AxisOf(w), Eighths(s), c, s.cubes[i].model, s.cubes[j].model);
      }
    }
  }

  /** An arrow move translates the center with everything else, so every
      offset from the center and every wall membership is unchanged. */
  lemma MoveAllKeepsWalls(s: RubiksCube, a: Arrow)
    ensures var r := MoveAll(s, a);
      forall i: Slot :: Minus(GetPosition(r.cubes[i]), Position(r)) == Minus(GetPosition(s.cubes[i]), Position(s))
    ensures var r := MoveAll(s, a);
      forall i: Slot, w: Wall :: InWall(w, Position(r), GetPosition(r.cubes[i])) <==> InWall(w, Position(s), GetPosition(s.cubes[i]))
  {
    var r := MoveAll(s, a);
    var d := ArrowShift(a, s.sensitivity);
    var c := Position(s);
    assert Position(r) == Plus(c, d);
    forall i: Slot
      ensures Minus(GetPosition(r.cubes[i]), Position(r)) == Minus(GetPosition(s.cubes[i]), c)
    {
      var p := GetPosition(s.cubes[i]);
      assert Minus(Plus(p, d), Plus(c, d)) == Minus(p, c);
    }
  }

  /** An arrow move never makes two sub-cubes collide. */
  lemma MoveAllKeepsDistinct(s: RubiksCube, a: Arrow)
    requires Distinct(s)
    ensures Distinct(MoveAll(s, a))
  {
    var r := MoveAll(s, a);
    var d := ArrowShift(a, s.sensitivity);
    forall i: Slot, j: Slot | i != j
      ensures GetPosition(r.cubes[i]) != GetPosition(r.cubes[j])
    {
      var p := GetPosition(s.cubes[i]);
      var q := GetPosition(s.cubes[j]);
      assert Minus(Plus(p, d), d) == p;
      assert Minus(Plus(q, d), d) == q;
    }
  }

  // ---------------------------------------------------------------------
  // Arrow moves
  // ---------------------------------------------------------------------

  /** Up followed by down, down followed by up, left followed by right and
      right followed by left restore the state. */
  lemma ArrowRoundTrip(s: RubiksCube)
    ensures MoveAll(MoveAll(s, UpArrow), DownArrow) == s
    ensures MoveAll(MoveAll(s, DownArrow), UpArrow) == s
    ensures MoveAll(MoveAll(s, LeftArrow), RightArrow) == s
    ensures MoveAll(MoveAll(s, RightArrow), LeftArrow) == s
  {
    ArrowUndo(s, UpArrow, DownArrow);
    ArrowUndo(s, DownArrow, UpArrow);
    ArrowUndo(s, LeftArrow, RightArrow);
    ArrowUndo(s, RightArrow, LeftArrow);
  }

  lemma ArrowUndo(s: RubiksCube, a: Arrow, b: Arrow)
    requires Plus(ArrowShift(a, s.sensitivity), ArrowShift(b, s.sensitivity)) == Origin
    ensures MoveAll(MoveAll(s, a), b) == s
  {
    var r := MoveAll(MoveAll(s, a), b);
    var da := ArrowShift(a, s.sensitivity);
    var db := ArrowShift(b, s.sensitivity);
    forall i: Slot
      ensures r.cubes[i] == s.cubes[i]
    {
      var m := s.cubes[i].model;
      assert Plus(Plus(m.t, da), db) == m.t;
    }
    assert r.cubes == s.cubes;
  }
}

=== FILE: session.dfy ===
/** A session: the stream of inputs the callbacks react to, the invariant
    every session keeps, and the stronger one it keeps as long as no picked
    sub-cube is dragged away with the right button. */
module Session {
  import opened Options
  import opened Numbers
  import opened Geometry
  import opened SmallCubes
  import opened Rubiks
  import opened RubiksProperties
  import opened Camera
  import opened Mixer

  /** One input the callbacks react to. Camera-only inputs (scroll, mouse
      moves without a button) change no cube state and are left out. */
  datatype Event =
    | WallKey(w: Wall)
    | SpaceKey
    | ZKey
    | AKey
    | PKey
    | ArrowKey(a: Arrow)
    | MixKey(fileOpens: bool, rand: nat -> nat)
    | RightPress(red: int)
    | CursorMove(d: Drag)

  /** KeyCallback, MouseButtonCallback and CursorPosCallback: the state after
      the event is handled. The mixer runs to completion before the next event. */
  function Step(s: RubiksCube, e: Event): (r: RubiksCube)
    ensures r.center == s.center
    ensures forall i: Slot :: r.cubes[i].index == s.cubes[i].index
    ensures LocksInOnePair(s.locks) ==> LocksInOnePair(r.locks)
    ensures !e.WallKey? && !e.MixKey? ==> r.locks == s.locks
  {
    match e
    case WallKey(w) => HandleWallKey(s, w)
    case SpaceKey => HandleSpace(s)
    case ZKey => HandleZ(s)
    case AKey => HandleA(s)
    case PKey => HandleP(s)
    case ArrowKey(a) => MoveAll(s, a)
    case MixKey(fileOpens, rand) =>
      if fileOpens then ApplyWallKeys(s, Walls(MixLog(rand, SignedAngle(s), MixCount(rand)))) else s
    case RightPress(red) => Pick(s, red)
    case CursorMove(d) => CursorDrag(s, d)
  }

  /** A right-button drag of a picked sub-cube: it translates that one
      sub-cube by an arbitrary amount. */
  predicate ShiftsPickedCube(s: RubiksCube, e: Event) {
    e.CursorMove? && !e.d.leftHeld && e.d.rightHeld && s.picking && s.selected.Some?
  }

  function Run(s: RubiksCube, events: seq<Event>): RubiksCube
    decreases |events|
  {
    if events == [] then s else Run(Step(s, events[0]), events[1..])
  }

  /** No event of the run drags a picked sub-cube with the right button. */
  predicate NoPickedShift(s: RubiksCube, events: seq<Event>)
    decreases |events|
  {
    events == [] || (!ShiftsPickedCube(s, events[0]) && NoPickedShift(Step(s, events[0]), events[1..]))
  }

  // ---------------------------------------------------------------------
  // The invariant
  // ---------------------------------------------------------------------

  /** The first wall, in lock order, that is locked and contains p. */
  function LockedWallOf(l: Locks, c: Vec3, p: Vec3): Option<Wall> {
    if l[0] && InWall(Right, c, p) then Some(Right)
    else if l[1] && InWall(Left, c, p) then Some(Left)
    else if l[2] && InWall(Up, c, p) then Some(Up)
    else if l[3] && InWall(Down, c, p) then Some(Down)
    else if l[4] && InWall(Back, c, p) then Some(Back)
    else if l[5] && InWall(Front, c, p) then Some(Front)
    else None
  }

  /** The sub-cube in slot i sits at a whole-unit offset from the center,
      unless it belongs to a locked wall: that wall stands at an odd multiple
      of 45 degrees, and one more 45-degree step about its axis would bring
      the sub-cube back to a whole-unit offset. */
  predicate CubeAligned(s: RubiksCube, i: Slot) {
    var c := Position(s);
    var o := Minus(GetPosition(s.cubes[i]), c);
    match LockedWallOf(s.locks, c, GetPosition(s.cubes[i]))
    case None => IsLattice(o)
    case Some(w) => IsLattice(Rotate(AxisOf(w), 1, o))
  }

  predicate Aligned(s: RubiksCube) {
    forall i: Slot :: CubeAligned(s, i)
  }

  /** What every session keeps, whatever its inputs: the center pointer stays
      on identity 13, identities stay in their slots and locks stay within
      one axis pair. None of these depends on where the sub-cubes are. */
  predicate Tracked(s: RubiksCube) {
    && s.center == 13
    && (forall i: Slot :: s.cubes[i].index == i)
    && LocksInOnePair(s.locks)
  }

  /** What a session keeps as long as no picked sub-cube is dragged away:
      besides the above, no two sub-cubes share a position, and every
      sub-cube is aligned. */
  predicate Sound(s: RubiksCube) {
    && Tracked(s)
    && Distinct(s)
    && Aligned(s)
  }

  // ---------------------------------------------------------------------
  // Preservation
  // ---------------------------------------------------------------------

  lemma InitialSound()
    ensures Sound(Initial())
  {
    InitialDistinct();
    forall i: Slot
      ensures CubeAligned(Initial(), i)
    {
      var x, y, z := InitialPoint(i);
      assert Minus(Point(x, y, z), Origin) == Point(x, y, z);
      assert (x as real).Floor == x && (y as real).Floor == y && (z as real).Floor == z;
    }
  }

  /** A state that keeps the center, the locks, every identity and every
      position is sound when the original is. */
  lemma SoundFrame(s: RubiksCube, r: RubiksCube)
    requires Sound(s)
    requires r.center == s.center && r.locks == s.locks
    requires forall i: Slot :: r.cubes[i].index == s.cubes[i].index
    requires forall i: Slot :: GetPosition(r.cubes[i]) == GetPosition(s.cubes[i])
    ensures Sound(r)
  {
    assert Position(r) == Position(s);
    forall i: Slot
      ensures CubeAligned(r, i)
    {
      assert CubeAligned(s, i);
    }
  }

  /** Locks other than w's do not matter for a point outside w. */
  lemma LockedWallFrame(l: Locks, m: Locks, w: Wall, c: Vec3, p: Vec3)
    requires forall k: LockSlot :: k != LockIndex(w) ==> l[k] == m[k]
    requires !InWall(w, c, p)
    ensures LockedWallOf(l, c, p) == LockedWallOf(m, c, p)
  {
  }

  /** While every lock outside w's pair is clear, a member of w is in a locked
      wall exactly when w itself is locked. */
  lemma LockedWallInGate(l: Locks, w: Wall, c: Vec3, p: Vec3)
    requires forall k: LockSlot :: k / 2 != LockIndex(w) / 2 ==> !l[k]
    requires InWall(w, c, p)
    ensures LockedWallOf(l, c, p) == if l[LockIndex(w)] then Some(w) else None
  {
  }

  /** A turn of wall w that its lock check allowed keeps the sub-cube in slot
      i aligned: a member is rotated by an odd or even number of 45-degree
      steps and w's lock toggles exactly on the odd ones. */
  lemma RotateKeepsCubeAligned(s: RubiksCube, w: Wall, i: Slot)
    requires Sound(s)
    requires CanRotate(s, w)
    ensures CubeAligned(RotateWall(s, w), i)
  {
    var r := RotateWall(s, w);
    var c := Position(s);
    var p := GetPosition(s.cubes[i]);
    assert CubeAligned(s, i);
    if !InWall(w, c, p) {
      LockedWallFrame(s.locks, r.locks, w, c, p);
    } else {
      var a := AxisOf(w);
      var n := Eighths(s);
      var o := Minus(p, c);
      RotateAboutOffset(a, n, c, s.cubes[i].model);
      assert Minus(GetPosition(r.cubes[i]), c) == Rotate(a, n, o);
      assert r.locks[LockIndex(w)] == (s.locks[LockIndex(w)] != (n % 2 == 1));
      LockedWallInGate(s.locks, w, c, p);
      LockedWallInGate(r.locks, w, c, GetPosition(r.cubes[i]));
      TurnKeepsAlignment(a, n, o, s.locks[LockIndex(w)]);
    }
  }

  /** The alignment of one offset o under a turn by n eighths: an unlocked
      offset is whole, a locked one is whole after one more step; the lock
      toggles exactly when n is odd. */
  lemma TurnKeepsAlignment(a: Axis, n: int, o: Vec3, locked: bool)
    requires if locked then IsLattice(Rotate(a, 1, o)) else IsLattice(o)
    ensures var now := locked != (n % 2 == 1);
      if now then IsLattice(Rotate(a, 1, Rotate(a, n, o))) else IsLattice(Rotate(a, n, o))
  {
    var base := if locked then 1 else 0;
    if !locked {
      RotateZero(a, o);
    }
    if locked != (n % 2 == 1) {
      EvenShift(a, base, n + 1 - base, o);
      RotateCompose(a, n, 1, o);
    } else {
      EvenShift(a, base, n - base, o);
    }
  }

  /** A point whole after k steps is whole after k plus any even number of steps. */
  lemma EvenShift(a: Axis, k: int, m: int, v: Vec3)
    requires IsLattice(Rotate(a, k, v))
    requires m % 2 == 0
    ensures IsLattice(Rotate(a, k + m, v))
  {
    RotateCompose(a, k, m, v);
    RotateEvenLattice(a, m, Rotate(a, k, v));
  }

  lemma WallKeySound(s: RubiksCube, w: Wall)
    requires Sound(s)
    ensures Sound(HandleWallKey(s, w))
  {
    if CanRotate(s, w) {
      var r := RotateWall(s, w);
      RotateWallKeepsDistinct(s, w);
      forall i: Slot
        ensures CubeAligned(r, i)
      {
        RotateKeepsCubeAligned(s, w, i);
      }
    }
  }

  lemma {:induction false} WallKeysSound(s: RubiksCube, ws: seq<Wall>)
    requires Sound(s)
    ensures Sound(ApplyWallKeys(s, ws))
    decreases |ws|
  {
    if ws != [] {
      WallKeySound(s, ws[0]);
      WallKeysSound(HandleWallKey(s, ws[0]), ws[1..]);
    }
  }

  lemma MoveAllSound(s: RubiksCube, a: Arrow)
    requires Sound(s)
    ensures Sound(MoveAll(s, a))
  {
    var r := MoveAll(s, a);
    MoveAllKeepsDistinct(s, a);
    MoveAllKeepsWalls(s, a);
    forall i: Slot
      ensures CubeAligned(r, i)
    {
      assert CubeAligned(s, i);
      var p := GetPosition(s.cubes[i]);
      var p' := GetPosition(r.cubes[i]);
      assert LockedWallOf(r.locks, Position(r), p') == LockedWallOf(s.locks, Position(s), p);
    }
  }

  /** Every event but a right-button drag of a picked sub-cube keeps the
      invariant. */
  lemma StepSound(s: RubiksCube, e: Event)
    requires Sound(s)
    requires !ShiftsPickedCube(s, e)
    ensures Sound(Step(s, e))
  {
    match e
    case WallKey(w) => WallKeySound(s, w);
    case SpaceKey => SoundFrame(s, Step(s, e));
    case ZKey => SoundFrame(s, Step(s, e));
    case AKey => SoundFrame(s, Step(s, e));
    case PKey => SoundFrame(s, Step(s, e));
    case ArrowKey(a) => MoveAllSound(s, a);
    case MixKey(fileOpens, rand) =>
      if fileOpens {
        WallKeysSound(s, Walls(MixLog(rand, SignedAngle(s), MixCount(rand))));
      }
    case RightPress(red) => SoundFrame(s, Step(s, e));
    case CursorMove(d) => SoundFrame(s, Step(s, e));
  }

  lemma {:induction false} RunSound(s: RubiksCube, events: seq<Event>)
    requires Sound(s)
    requires NoPickedShift(s, events)
    ensures Sound(Run(s, events))
    decreases |events|
  {
    if events != [] {
      StepSound(s, events[0]);
      RunSound(Step(s, events[0]), events[1..]);
    }
  }

  /** In a sound state with no lock set every sub-cube sits at a whole-unit
      offset from the center. */
  lemma UnlockedIsLattice(s: RubiksCube)
    requires Sound(s)
    requires forall k: LockSlot :: !s.locks[k]
    ensures forall i: Slot :: IsLattice(Minus(GetPosition(s.cubes[i]), Position(s)))
  {
    forall i: Slot
      ensures IsLattice(Minus(GetPosition(s.cubes[i]), Position(s)))
    {
      assert CubeAligned(s, i);
    }
  }

  /** Every run, whatever its inputs, keeps the center, the identities and
      the lock pairs. */
  lemma {:induction false} RunTracked(s: RubiksCube, events: seq<Event>)
    requires Tracked(s)
    ensures Tracked(Run(s, events))
    decreases |events|
  {
    if events != [] {
      RunTracked(Step(s, events[0]), events[1..]);
    }
  }

  /** In picking mode, while identities stay in their slots, a right click
      selects the sub-cube drawn under the cursor. */
  lemma TrackedPick(s: RubiksCube)
    requires Tracked(s) && s.picking
    ensures forall i: Slot :: Pick(s, PickRed(i)).selected == Some(i)
  {
    forall i: Slot
      ensures Pick(s, PickRed(i)).selected == Some(i)
    {
      PickSelectsDrawnCube(s, i);
    }
  }

  /** What a session from the constructed state guarantees. Whatever the
      inputs, locks never span two axes and a right click in picking mode
      selects the sub-cube drawn under the cursor. As long as no picked
      sub-cube is dragged with the right button, moreover, no two sub-cubes
      meet and whenever no lock is set every sub-cube sits at a whole-unit
      offset from the center. */
  lemma SessionGuarantees(events: seq<Event>)
    ensures var s := Run(Initial(), events);
      && LocksInOnePair(s.locks)
      && (s.picking ==> forall i: Slot :: Pick(s, PickRed(i)).selected == Some(i))
      && (NoPickedShift(Initial(), events) ==>
            && Distinct(s)
            && ((forall k: LockSlot :: !s.locks[k]) ==>
                  forall i: Slot :: IsLattice(Minus(GetPosition(s.cubes[i]), Position(s)))))
  {
    InitialSound();
    RunTracked(Initial(), events);
    var s := Run(Initial(), events);
    if s.picking {
      TrackedPick(s);
    }
    if NoPickedShift(Initial(), events) {
      RunSound(Initial(), events);
      if forall k: LockSlot :: !s.locks[k] {
        UnlockedIsLattice(s);
      }
    }
  }

  /** A right-button drag of a picked sub-cube k that moves it onto the
      position of another sub-cube j makes the two meet. */
  lemma PickedShiftCollides(s: RubiksCube, d: Drag, k: Slot, j: Slot)
    requires s.picking && s.selected == Some(k) && !d.leftHeld && d.rightHeld
    requires j != k && Plus(GetPosition(s.cubes[k]), Shift(d)) == GetPosition(s.cubes[j])
    ensures ShiftsPickedCube(s, CursorMove(d))
    ensures !Distinct(Step(s, CursorMove(d)))
  {
    var r := CursorDrag(s, d);
    assert r.cubes == s.cubes[k := SetModelMatrix(s.cubes[k], TranslateBy(Shift(d), GetModelMatrix(s.cubes[k])))];
    assert GetPosition(r.cubes[k]) == GetPosition(r.cubes[j]);
  }

  /** The offset from sub-cube k to sub-cube j lies in the x-y plane and has
      no irrational part, so a right-button drag can cover it exactly. */
  predicate DragReachable(s: RubiksCube, k: Slot, j: Slot) {
    var o := Minus(GetPosition(s.cubes[j]), GetPosition(s.cubes[k]));
    o.x.radical == 0.0 && o.y.radical == 0.0 && o.z == Int(0)
  }

  /** The exception is needed: a picked sub-cube k is put on any other
      sub-cube j it can reach by a right-button drag. */
  lemma PickedShiftCanCollide(s: RubiksCube, j: Slot)
    requires s.picking && s.selected.Some? && j != s.selected.value
    requires DragReachable(s, s.selected.value, j)
    ensures var o := Minus(GetPosition(s.cubes[j]), GetPosition(s.cubes[s.selected.value]));
      var none := Linear(Origin, Origin, Origin);
      var d := Drag(false, true, none, none, o.x.rational, o.y.rational);
      ShiftsPickedCube(s, CursorMove(d)) && !Distinct(Step(s, CursorMove(d)))
  {
    var k := s.selected.value;
    var o := Minus(GetPosition(s.cubes[j]), GetPosition(s.cubes[k]));
    var none := Linear(Origin, Origin, Origin);
    var d := Drag(false, true, none, none, o.x.rational, o.y.rational);
    assert Shift(d) == o;
    PickedShiftCollides(s, d, k, j);
  }

  /** Such pairs exist from the start: in the constructed grid slot 3 lies one
      unit above slot 0. */
  lemma InitialReachablePair()
    ensures DragReachable(Initial(), 0, 3)
  {
    var x, y, z := InitialPoint(0);
    var x', y', z' := InitialPoint(3);
  }
}

=== FILE: small_cube.dfy ===
/** One of the 27 unit sub-cubes (class SmallCube): a fixed identity and two
    independently composed transforms. The model matrix places the sub-cube
    in assembly space and is what wall rotations, arrow moves and picked-cube
    drags change; the rotation matrix accumulates the whole-assembly orbit and
    is never read back for wall membership. */
module SmallCubes {
  import opened Geometry

  datatype SmallCube = SmallCube(index: int, model: Affine, rotation: Affine)

  /** SmallCube(pos, index): the model matrix is the pure translation to pos
      and the rotation matrix is the identity, so the reported position is pos. */
  function NewSmallCube(pos: Vec3, index: int): (c: SmallCube)
    ensures c.index == index
    ensures GetPosition(c) == pos
    ensures c.model.c0 == Identity().c0 && c.model.c1 == Identity().c1 && c.model.c2 == Identity().c2
    ensures c.rotation == Identity()
  {
    SmallCube(index, Translation(pos), Identity())
  }

  /** SmallCube(): identity 0 and the identity model matrix, so the sub-cube
      sits at the origin. The rotation matrix is left uninitialised by the
      constructor; whatever it holds is passed in as `unset`. */
  function DefaultSmallCube(unset: Affine): (c: SmallCube)
    ensures c.index == 0
    ensures c.model == Identity()
    ensures GetPosition(c) == Origin
  {
    SmallCube(0, Identity(), unset)
  }

  /** The translation column of the model matrix. */
  function GetPosition(c: SmallCube): Vec3 {
    c.model.t
  }

  function GetModelMatrix(c: SmallCube): Affine {
    c.model
  }

  function GetRotationMatrix(c: SmallCube): Affine {
    c.rotation
  }

  /** Replaces the model matrix; identity and rotation matrix are kept. */
  function SetModelMatrix(c: SmallCube, m: Affine): (r: SmallCube)
    ensures GetModelMatrix(r) == m
    ensures GetPosition(r) == m.t
    ensures r.index == c.index && GetRotationMatrix(r) == GetRotationMatrix(c)
  {
    c.(model := m)
  }

  /** Replaces the rotation matrix; identity, model matrix and therefore the
      position are kept. */
  function SetRotationMatrix(c: SmallCube, m: Affine): (r: SmallCube)
    ensures GetRotationMatrix(r) == m
    ensures r.index == c.index && GetModelMatrix(r) == GetModelMatrix(c)
    ensures GetPosition(r) == GetPosition(c)
  {
    c.(rotation := m)
  }

  /** The position is where the model matrix sends the sub-cube's own
      origin. */
  lemma PositionIsOriginImage(c: SmallCube)
    ensures GetPosition(c) == Transform(GetModelMatrix(c), Origin)
  {
    TransformOrigin(GetModelMatrix(c));
  }

  /** Setting a model matrix and reading it back returns it, and setting back
      the matrix that was read restores the sub-cube. */
  lemma ModelMatrixRoundTrip(c: SmallCube, m: Affine)
    ensures GetModelMatrix(SetModelMatrix(c, m)) == m
    ensures SetModelMatrix(c, GetModelMatrix(c)) == c
  {
  }
}
